=== FILE: README.md ===
# datahelix constraint readers, atomic constraints and field-spec seeds in Dafny

This project models three small, side-effect-free parts of the datahelix
data generator.

- **The constraint reader lookup** (`AtomicConstraintReaderLookup`). This is
  a table, filled once by a static initializer, that maps each of the 19
  constraint type codes of a profile to a reader. A reader turns a raw
  constraint record into one atomic constraint. It takes the record's field
  name and its `value` or `values`, and converts the operand on the way:
  - a cast to `String` or `Number`;
  - `intValue()` for lengths;
  - a `HashSet` for in-set values;
  - `parseDate` for date-times;
  - a `switch` over type names.
- **The atomic constraint value objects.** `StringHasLengthConstraint` and
  `MatchesRegexConstraint` are immutable records with hand-written equality
  and hash, and both ignore the rule. `ViolatedAtomicConstraint` is a
  decorator: it changes only the rule it reports and forwards everything
  else to the wrapped constraint, `equals` included. Equality is modelled
  exactly as written, so its non-reflexive behaviour can be stated. A wrapper
  equals its bare inner constraint, the inner constraint does not equal the
  wrapper, and no wrapper equals any wrapper.
- **The field-spec seeds** (`FieldSpecFactory`, `FieldSpecHelper`). These
  are:
  - the whitelist, restriction, per-type default, null-only and generator
    specs;
  - the spec that pins a field to a single value, or to null.

Modules:

| file | module | what it holds |
|---|---|---|
| `wrappers.dfy` | `Wrappers` | `Option` and `Result` |
| `digits.dfy` | `Digits` | decimal digit strings, zero padding, and their round trips |
| `java_lang.dfy` | `JavaLang` | exceptions, 32-bit `int`, boxed `Number`, `intValue()`, `toString()`, the `String`/`Objects` hash recipes |
| `profile.dfy` | `Profile` | `Field`, JSON-like operand values, the constraint record, and `toString()` of an operand |
| `iso_dates.dfy` | `IsoDates` | `LocalDate.parse`, `LocalDateTime.parse`, `atStartOfDay`, and canonical formatting |
| `atomic_constraints.dfy` | `AtomicConstraints` | the constraint sum type; constructors; `equals`, `hashCode`, `negate`, `getField(s)`, `getRule`, `toDotLabel`, `toString` |
| `constraint_properties.dfy` | `ConstraintProperties` | lemmas on equality, hash, negation and the violated decorator |
| `constraint_readers.dfy` | `ConstraintReaders` | type codes, the reader table, `getByTypeCode`, `parseDate`, and every reader |
| `reader_properties.dfy` | `ReaderProperties` | lemmas on lookup, date parsing, lengths and in-set values |
| `field_spec_factory.dfy` | `FieldSpecFactory` | the factory's five seeds |
| `field_spec_helper.dfy` | `FieldSpecHelper` | single-value and null-only specs, and the nullness convention |

Java exceptions become `Err` values of a `Result`. For example, a
`ClassCastException` is `Err(ClassCast(..))`, and a `NullPointerException`
raised by calling `intValue()` on `null` or by a `switch` on `null` is `Err(NullPointer)`. A Java
`null` is `Option.None` or the `Null` operand value.

The readers validate only what the code shows, given that the constructors of the constraint classes outside this model accept every operand (see Left out):
- The type reader accepts `"numeric"`.
- Length operands get no check that they are whole, non-negative or in range.
- A text of ten characters or fewer needs a four-digit year; longer date-times are modelled with four-digit years only (see Left out).
- A `{"date": ...}` object is never unwrapped.
- A date-time with an offset is refused.
- An in-set list may be empty or contain `null`, as far as the reader goes; whether `IsInSetConstraint` refuses such a set is not modelled.

## Model

| member | source | states |
|---|---|---|
| `ConstraintReaders.TypeCodeInjective` | generator/src/main/java/com/scottlogic/deg/generator/inputs/AtomicConstraintReaderLookup.java:26-167 | each constraint type's code reads back to that type, so no two registered readers share a code and no `put` overwrites another |
| `ConstraintReaders.AddAll` | generator/src/main/java/com/scottlogic/deg/generator/inputs/AtomicConstraintReaderLookup.java:170-172 | registering a list of types adds exactly their codes to the table, maps each code to its type, and leaves every other entry as it was |
| `ConstraintReaders.GetByTypeCode` | generator/src/main/java/com/scottlogic/deg/generator/inputs/AtomicConstraintReaderLookup.java:184-186 | a reader found under a code is the reader registered for that code |
| `ReaderProperties.LookupFindsRegisteredReader` | generator/src/main/java/com/scottlogic/deg/generator/inputs/AtomicConstraintReaderLookup.java:184-186 | looking up a type's code returns that type's reader |
| `ReaderProperties.LookupMissesUnregisteredCodes` | generator/src/main/java/com/scottlogic/deg/generator/inputs/AtomicConstraintReaderLookup.java:184-186 | a code finds no reader (`null`) exactly when it is not the code of any constraint type |
| `ConstraintReaders.Read` | generator/src/main/java/com/scottlogic/deg/generator/inputs/AtomicConstraintReaderLookup.java:26-167 | the reader of type `t` builds only a constraint of `t`'s class, on the field resolved from the record's field name, under the given rule; the equal-to and null readers never fail; the granular-to reader succeeds exactly when the granularity parser does, keeping its value, and otherwise passes on its exception |
| `ConstraintReaders.ReadNumericBoundOf` | generator/src/main/java/com/scottlogic/deg/generator/inputs/AtomicConstraintReaderLookup.java:57-79 | each of the four numeric readers builds its own comparison class on the given field and rule |
| `ConstraintReaders.ReadDateTimeBoundOf` | generator/src/main/java/com/scottlogic/deg/generator/inputs/AtomicConstraintReaderLookup.java:81-103 | each of the four before/after readers builds its own comparison class on the given field and rule |
| `ConstraintReaders.ReadLengthBound` | generator/src/main/java/com/scottlogic/deg/generator/inputs/AtomicConstraintReaderLookup.java:142-167 | the longer-than, shorter-than and has-length readers each build their own class on the given field and rule |
| `ConstraintReaders.CastToString` | generator/src/main/java/com/scottlogic/deg/generator/inputs/AtomicConstraintReaderLookup.java:119 | a `(String)` cast succeeds exactly on strings and `null`; `null` stays `null`, and a string is kept |
| `ConstraintReaders.CastToNumber` | generator/src/main/java/com/scottlogic/deg/generator/inputs/AtomicConstraintReaderLookup.java:61 | a `(Number)` cast succeeds exactly on numbers and `null`; `null` stays `null`, and a number is kept |
| `ConstraintReaders.ReadInSet` | generator/src/main/java/com/scottlogic/deg/generator/inputs/AtomicConstraintReaderLookup.java:38-42 | a missing `values` list raises `NullPointerException`; otherwise the set holds exactly the listed values |
| `ConstraintReaders.DistinctValues` | generator/src/main/java/com/scottlogic/deg/generator/inputs/AtomicConstraintReaderLookup.java:42 | `new HashSet<>(values)` holds a value exactly when the list does |
| `ConstraintReaders.ReadMatchesRegex` | generator/src/main/java/com/scottlogic/deg/generator/inputs/AtomicConstraintReaderLookup.java:44-48 | succeeds exactly on a string operand, whose text becomes the pattern source; `null` raises `NullPointerException` |
| `ConstraintReaders.ReadAValid` | generator/src/main/java/com/scottlogic/deg/generator/inputs/AtomicConstraintReaderLookup.java:50-55 | succeeds on any string or `null`; a generator is found exactly for `"ISIN"`, and any other name gives none without error |
| `ConstraintReaders.ReadNumericBound` | generator/src/main/java/com/scottlogic/deg/generator/inputs/AtomicConstraintReaderLookup.java:57-79 | succeeds exactly on a number or `null`, which becomes the reference number of the class chosen by the comparison |
| `ConstraintReaders.ReadDateTimeBound` | generator/src/main/java/com/scottlogic/deg/generator/inputs/AtomicConstraintReaderLookup.java:81-103 | a `null` operand raises `NullPointerException`; otherwise the reader succeeds exactly when `parseDate` accepts the operand's `toString()`, and stores that instant |
| `ConstraintReaders.ReadOfType` | generator/src/main/java/com/scottlogic/deg/generator/inputs/AtomicConstraintReaderLookup.java:115-139 | succeeds exactly on `"numeric"`, `"string"` and `"temporal"`, mapped to the type of that name; another string raises `InvalidProfileException` quoting it; `null` raises `NullPointerException` |
| `ConstraintReaders.ReadLength` | generator/src/main/java/com/scottlogic/deg/generator/inputs/AtomicConstraintReaderLookup.java:145 | succeeds exactly on a number, giving its `intValue()`; `null` raises `NullPointerException`, from calling `intValue()` on `null` |
| `ConstraintReaders.ReadStringLength` | generator/src/main/java/com/scottlogic/deg/generator/inputs/AtomicConstraintReaderLookup.java:142-158 | succeeds exactly on a number, whose `intValue()` becomes the length of the longer-than or shorter-than constraint |
| `ConstraintReaders.ReadHasLength` | generator/src/main/java/com/scottlogic/deg/generator/inputs/AtomicConstraintReaderLookup.java:160-167 | succeeds exactly on a number, whose `intValue()`, boxed as an `Integer`, becomes the reference value; the constructor's null check cannot fail here |
| `ReaderProperties.OfTypeRoundTrip` | generator/src/main/java/com/scottlogic/deg/generator/inputs/AtomicConstraintReaderLookup.java:119-130 | each type's wire name is read back to that type |
| `ReaderProperties.LengthsNotValidated` | generator/src/main/java/com/scottlogic/deg/generator/inputs/AtomicConstraintReaderLookup.java:160-167 | a fractional length is truncated, a negative one is kept, and 2^31 wraps to -2^31; none is rejected |
| `ReaderProperties.DistinctValuesBound` | generator/src/main/java/com/scottlogic/deg/generator/inputs/AtomicConstraintReaderLookup.java:42 | the set never has more members than the list has entries |
| `ReaderProperties.DuplicatesCollapse` | generator/src/main/java/com/scottlogic/deg/generator/inputs/AtomicConstraintReaderLookup.java:42 | a list with a repeated entry gives a strictly smaller set |
| `ReaderProperties.InSetCollapsesDuplicates` | generator/src/main/java/com/scottlogic/deg/generator/inputs/AtomicConstraintReaderLookup.java:38-42 | the in-set reader's set is strictly smaller than a list with a repeated entry |
| `ReaderProperties.DateReadersAgree` | generator/src/main/java/com/scottlogic/deg/generator/inputs/AtomicConstraintReaderLookup.java:81-103 | the four before/after readers accept the same operands and read the same instant from them |
| `ReaderProperties.DateObjectNotUnwrapped` | generator/src/main/java/com/scottlogic/deg/generator/inputs/AtomicConstraintReaderLookup.java:85 | an object operand such as `{"date": ...}`, or a list, is not unwrapped and fails with a date-time parse error on its text |
| `Profile.Text` | generator/src/main/java/com/scottlogic/deg/generator/inputs/AtomicConstraintReaderLookup.java:85 | `toString()` of an operand: a string is itself, a list is bracketed, an object is braced, an integral number reads back as its value and a double shows a decimal point |
| `ConstraintReaders.ParseDate` | generator/src/main/java/com/scottlogic/deg/generator/inputs/AtomicConstraintReaderLookup.java:174-182 | up to ten characters succeed exactly when they are a calendar date, giving that date at 00:00; longer text succeeds exactly when it is a full local date-time; a failure raises a parse error on the text |
| `ReaderProperties.ParseDateOfCalendarDate` | generator/src/main/java/com/scottlogic/deg/generator/inputs/AtomicConstraintReaderLookup.java:178-179 | every valid date written `yyyy-MM-dd` is read as the start of that day |
| `ReaderProperties.ParseDateOfDateTime` | generator/src/main/java/com/scottlogic/deg/generator/inputs/AtomicConstraintReaderLookup.java:176-177 | every valid date-time written in full is read back unchanged |
| `ReaderProperties.LeapDayParses` | generator/src/main/java/com/scottlogic/deg/generator/inputs/AtomicConstraintReaderLookup.java:179 | `2020-02-29` is read as midnight on 29 February 2020 |
| `ReaderProperties.LeapDayIn2020` | generator/src/main/java/com/scottlogic/deg/generator/inputs/AtomicConstraintReaderLookup.java:179 | `LocalDate.parse("2020-02-29")` gives 29 February 2020 |
| `ReaderProperties.NonLeapDayRejected` | generator/src/main/java/com/scottlogic/deg/generator/inputs/AtomicConstraintReaderLookup.java:179 | `2019-02-29` raises a parse error: the calendar is checked strictly |
| `ReaderProperties.NoLeapDayIn2019` | generator/src/main/java/com/scottlogic/deg/generator/inputs/AtomicConstraintReaderLookup.java:179 | `LocalDate.parse("2019-02-29")` fails |
| `ReaderProperties.ThirtiethOfFebruaryRejected` | generator/src/main/java/com/scottlogic/deg/generator/inputs/AtomicConstraintReaderLookup.java:179 | `2020-02-30` raises a parse error |
| `ReaderProperties.NoThirtiethOfFebruary` | generator/src/main/java/com/scottlogic/deg/generator/inputs/AtomicConstraintReaderLookup.java:179 | `LocalDate.parse("2020-02-30")` fails |
| `ReaderProperties.OffsetRejected` | generator/src/main/java/com/scottlogic/deg/generator/inputs/AtomicConstraintReaderLookup.java:177 | a date-time with a trailing `Z` offset fails to parse as a local date-time |
| `ReaderProperties.HourMinuteTimeParses` | generator/src/main/java/com/scottlogic/deg/generator/inputs/AtomicConstraintReaderLookup.java:177 | a time of `HH:mm` alone has zero seconds and nanoseconds |
| `ReaderProperties.ShortDateTimeParses` | generator/src/main/java/com/scottlogic/deg/generator/inputs/AtomicConstraintReaderLookup.java:176-177 | `2020-02-29T10:15` takes the date-time branch and is read as 10:15 on that day |
| `ReaderProperties.ShortLocalDateTimeParses` | generator/src/main/java/com/scottlogic/deg/generator/inputs/AtomicConstraintReaderLookup.java:177 | `LocalDateTime.parse("2020-02-29T10:15")` gives 10:15:00 on 29 February 2020 |
| `IsoDates.AtStartOfDay` | generator/src/main/java/com/scottlogic/deg/generator/inputs/AtomicConstraintReaderLookup.java:179 | the same date, at hour, minute, second and nanosecond zero |
| `IsoDates.ParseLocalDate` | generator/src/main/java/com/scottlogic/deg/generator/inputs/AtomicConstraintReaderLookup.java:179 | a date it accepts is valid in the calendar, and its canonical text is the input |
| `IsoDates.ParseLocalDateExactly` | generator/src/main/java/com/scottlogic/deg/generator/inputs/AtomicConstraintReaderLookup.java:179 | a text parses to a date exactly when the date is valid and the text is that date's canonical form |
| `IsoDates.ParseFormatDate` | generator/src/main/java/com/scottlogic/deg/generator/inputs/AtomicConstraintReaderLookup.java:179 | a valid date's canonical text parses back to the date |
| `IsoDates.ParseLocalTime` | generator/src/main/java/com/scottlogic/deg/generator/inputs/AtomicConstraintReaderLookup.java:177 | a time it accepts has hour, minute, second and nanosecond within their ranges |
| `IsoDates.ParseFormatTime` | generator/src/main/java/com/scottlogic/deg/generator/inputs/AtomicConstraintReaderLookup.java:177 | a valid time written `HH:mm:ss.nnnnnnnnn` parses back to the time |
| `IsoDates.ParseLocalDateTime` | generator/src/main/java/com/scottlogic/deg/generator/inputs/AtomicConstraintReaderLookup.java:177 | a date-time it accepts is valid, the input is at least 16 characters, and its first ten characters are the date's canonical text |
| `IsoDates.ParseFormatDateTime` | generator/src/main/java/com/scottlogic/deg/generator/inputs/AtomicConstraintReaderLookup.java:177 | a valid date-time written in full parses back to itself |
| `JavaLang.IntValue` | generator/src/main/java/com/scottlogic/deg/generator/inputs/AtomicConstraintReaderLookup.java:145 | an `Integer` is unchanged; a `Long` or `BigInteger` is congruent modulo 2^32; a `Double` is cut toward zero and clamped to the `int` range |
| `JavaLang.IntValueKeepsIntRange` | generator/src/main/java/com/scottlogic/deg/generator/inputs/AtomicConstraintReaderLookup.java:145 | an integral number within the `int` range keeps its value, whatever its boxed kind |
| `JavaLang.LongIntValueWraps` | generator/src/main/java/com/scottlogic/deg/generator/inputs/AtomicConstraintReaderLookup.java:154 | a `Long` length of 2^31 becomes -2^31, and 2^32 + 5 becomes 5 |
| `JavaLang.DoubleIntValueTruncates` | generator/src/main/java/com/scottlogic/deg/generator/inputs/AtomicConstraintReaderLookup.java:163 | a `Double` length of 2.5 becomes 2, -2.5 becomes -2, and 10^10 becomes `Integer.MAX_VALUE` |
| `JavaLang.NumberText` | generator/src/main/java/com/scottlogic/deg/generator/constraints/atomic/StringHasLengthConstraint.java:25 | the decimal text of a boxed number is non-empty; an integral number reads back as its value, and a double's text has a decimal point |
| `JavaLang.PolyHash` | generator/src/main/java/com/scottlogic/deg/generator/constraints/atomic/StringHasLengthConstraint.java:43 | Java's `31 * h + x` hash loop in 32-bit arithmetic equals the unbounded polynomial reduced to 32 bits |
| `JavaLang.StringHash` | generator/src/main/java/com/scottlogic/deg/generator/constraints/atomic/MatchesRegexConstraint.java:40 | `String.hashCode()` is the polynomial of the UTF-16 units reduced to 32 bits, and 0 for the empty string |
| `JavaLang.StringHashAppend` | generator/src/main/java/com/scottlogic/deg/generator/constraints/atomic/MatchesRegexConstraint.java:40 | appending a basic-plane character multiplies the hash by 31 and adds the character, modulo 2^32 |
| `JavaLang.ObjectsHash` | generator/src/main/java/com/scottlogic/deg/generator/constraints/atomic/StringHasLengthConstraint.java:43 | `Objects.hash(a, b)` is `31 * (31 + a) + b` reduced to 32 bits |
| `JavaLang.NumberHash` | generator/src/main/java/com/scottlogic/deg/generator/constraints/atomic/StringHasLengthConstraint.java:43 | an `Integer` hashes to itself; a `Long` in `int` range hashes to itself when non-negative and to `-1 - l` when negative |
| `JavaLang.LongWords` | generator/src/main/java/com/scottlogic/deg/generator/constraints/atomic/StringHasLengthConstraint.java:43 | the two 32-bit words of a `long` in `int` range `xor` to the value itself, or to `-1 - l` for a negative one |
| `AtomicConstraints.NewStringHasLength` | generator/src/main/java/com/scottlogic/deg/generator/constraints/atomic/StringHasLengthConstraint.java:13-21 | a null reference value raises `IllegalArgumentException` with its message, and only then; otherwise field, value and rule are stored as given |
| `ConstraintProperties.AccessorsReturnStoredValues` | generator/src/main/java/com/scottlogic/deg/generator/constraints/atomic/StringHasLengthConstraint.java:29-52 | after construction, `getField`, `getFields` and `getRule` of the length and regex constraints return what the constructor was given |
| `ConstraintProperties.HasLengthEqualityIsByValue` | generator/src/main/java/com/scottlogic/deg/generator/constraints/atomic/StringHasLengthConstraint.java:34-39 | two length constraints are equal exactly when field and boxed value are equal, whatever their rules; `Integer` 5 and `Long` 5 differ |
| `ConstraintProperties.HasLengthEqualsOnlyLengths` | generator/src/main/java/com/scottlogic/deg/generator/constraints/atomic/StringHasLengthConstraint.java:33-39 | compared with any object, a length constraint is equal exactly to a length constraint on the same field with an equal boxed number |
| `ConstraintProperties.EqualsReflexiveOnPlain` | generator/src/main/java/com/scottlogic/deg/generator/constraints/atomic/StringHasLengthConstraint.java:33-39 | a constraint with no violated decorator inside equals itself |
| `ConstraintProperties.HashConsistentWithEquals` | generator/src/main/java/com/scottlogic/deg/generator/constraints/atomic/StringHasLengthConstraint.java:33-44 | equal constraints, decorators included, have equal hash codes |
| `ConstraintProperties.HasLengthLabel` | generator/src/main/java/com/scottlogic/deg/generator/constraints/atomic/StringHasLengthConstraint.java:24-26 | the label is the field name, ` length = `, and the value's text, from which an integral value reads back |
| `JavaLang.IntegralTextRoundTrip` | generator/src/main/java/com/scottlogic/deg/generator/constraints/atomic/StringHasLengthConstraint.java:25 | the text `%s` gives an integral boxed number reads back as that number |
| `AtomicConstraints.NewMatchesRegex` | generator/src/main/java/com/scottlogic/deg/generator/constraints/atomic/MatchesRegexConstraint.java:14-18 | builds a regex constraint that stores field, pattern and rule as given, with no validation |
| `AtomicConstraints.Compile` | generator/src/main/java/com/scottlogic/deg/generator/inputs/AtomicConstraintReaderLookup.java:48 | a compiled pattern's `toString()` is the source it was compiled from |
| `ConstraintProperties.RegexEqualityIsTextual` | generator/src/main/java/com/scottlogic/deg/generator/constraints/atomic/MatchesRegexConstraint.java:34-35 | two regex constraints are equal exactly when their fields are equal and their pattern texts are equal, whatever their rules and however often the text was compiled |
| `ConstraintProperties.RegexEqualsOnlyRegexes` | generator/src/main/java/com/scottlogic/deg/generator/constraints/atomic/MatchesRegexConstraint.java:31-36 | compared with any object, a regex constraint is equal exactly to a regex constraint on the same field with the same pattern text |
| `ConstraintProperties.EqualityIgnoresRule` | generator/src/main/java/com/scottlogic/deg/generator/constraints/atomic/MatchesRegexConstraint.java:31-36 | replacing the rule on either side never changes whether two concrete constraints are equal |
| `ConstraintProperties.RegexLabel` | generator/src/main/java/com/scottlogic/deg/generator/constraints/atomic/MatchesRegexConstraint.java:21-23 | the label is the field name, ` matches /`, the pattern text and `/`, so the pattern text can be cut back out |
| `AtomicConstraints.JavaEquals` | generator/src/main/java/com/scottlogic/deg/generator/constraints/atomic/ViolatedAtomicConstraint.java:49-51 | nothing equals a violated decorator, and equal constraints have the same field and fields |
| `ConstraintProperties.WrapperEqualityConsequences` | generator/src/main/java/com/scottlogic/deg/generator/constraints/atomic/ViolatedAtomicConstraint.java:49-51 | a decorator equals its bare inner constraint, the inner constraint does not equal the decorator, no decorator equals itself, and no decorator equals any decorator |
| `ConstraintProperties.WrapKeepsEquality` | generator/src/main/java/com/scottlogic/deg/generator/constraints/atomic/ViolatedAtomicConstraint.java:49-51 | any number of decorators compare with any object exactly as the inner constraint does |
| `ConstraintProperties.WrapKeepsInnerView` | generator/src/main/java/com/scottlogic/deg/generator/constraints/atomic/ViolatedAtomicConstraint.java:16-47 | under any number of decorators, the field, fields, dot label and hash code are the inner constraint's |
| `ConstraintProperties.NegateInvolution` | generator/src/main/java/com/scottlogic/deg/generator/constraints/atomic/ViolatedAtomicConstraint.java:26-28 | negating twice gives back the constraint, for every shape negation produces, and negation produces only those shapes |
| `ConstraintProperties.NegateStaysWrapped` | generator/src/main/java/com/scottlogic/deg/generator/constraints/atomic/ViolatedAtomicConstraint.java:26-28 | negating a constraint under `n` decorators gives the negated constraint under `n` decorators |
| `AtomicConstraints.Negate` | generator/src/main/java/com/scottlogic/deg/generator/constraints/atomic/ViolatedAtomicConstraint.java:26-28 | the negation has the same field and reports the same rule, and the negation of a violated decorator is again a violated decorator |
| `AtomicConstraints.GetField` | generator/src/main/java/com/scottlogic/deg/generator/constraints/atomic/ViolatedAtomicConstraint.java:16-18 | the field of the innermost concrete constraint, however many decorators and negations surround it |
| `AtomicConstraints.GetFields` | generator/src/main/java/com/scottlogic/deg/generator/constraints/atomic/ViolatedAtomicConstraint.java:31-33 | the one-element list holding the constraint's field |
| `AtomicConstraints.GetRule` | generator/src/main/java/com/scottlogic/deg/generator/constraints/atomic/ViolatedAtomicConstraint.java:36-38 | the innermost concrete constraint's rule, violated once for each decorator around it |
| `AtomicConstraints.HashCode` | generator/src/main/java/com/scottlogic/deg/generator/constraints/atomic/ViolatedAtomicConstraint.java:45-47 | the hash of the innermost concrete constraint; for a length or regex constraint, `Objects.hash` of the field name's hash and the value's or pattern text's hash |
| `AtomicConstraints.ToDotLabel` | generator/src/main/java/com/scottlogic/deg/generator/constraints/atomic/ViolatedAtomicConstraint.java:21-23 | a decorator shows its bare inner constraint's label, which for a length constraint is `<name> length = <value>` and for a regex constraint `<name> matches /<text>/` |
| `AtomicConstraints.ToString` | generator/src/main/java/com/scottlogic/deg/generator/constraints/atomic/ViolatedAtomicConstraint.java:41-43 | a decorated constraint's text is one `Violated: ` per outer decorator, then the text of the constraint inside them |
| `ConstraintProperties.WrapViolatesRule` | generator/src/main/java/com/scottlogic/deg/generator/constraints/atomic/ViolatedAtomicConstraint.java:36-38 | under `n` decorators the reported rule is the inner rule violated `n` times |
| `ConstraintProperties.WrapPrefixesText` | generator/src/main/java/com/scottlogic/deg/generator/constraints/atomic/ViolatedAtomicConstraint.java:41-43 | under `n` decorators `toString` is `Violated: ` repeated `n` times, then the inner text |
| `FieldSpecFactory.FromList` | generator/src/main/java/com/scottlogic/deg/generator/fieldspecs/FieldSpecFactory.java:40-42 | a whitelist spec over exactly the given list that admits exactly the listed values and null |
| `FieldSpecFactory.FromRestriction` | generator/src/main/java/com/scottlogic/deg/generator/fieldspecs/FieldSpecFactory.java:44-46 | the restriction unchanged, null allowed, and nothing that must be contained |
| `FieldSpecFactory.FromType` | generator/src/main/java/com/scottlogic/deg/generator/fieldspecs/FieldSpecFactory.java:48-60 | succeeds exactly for NUMERIC, DATETIME, STRING and BOOLEAN, each with a restriction of its own type (a string gets `MAX_STRING_LENGTH`), null allowed and nothing that must be contained; any other type raises `IllegalArgumentException` naming it |
| `FieldSpecFactory.FromTypeDistinguishesTypes` | generator/src/main/java/com/scottlogic/deg/generator/fieldspecs/FieldSpecFactory.java:49-57 | two supported field types get the same default spec exactly when they are the same type |
| `FieldSpecFactory.NullOnly` | generator/src/main/java/com/scottlogic/deg/generator/fieldspecs/FieldSpecFactory.java:63-65 | always the one shared instance, which admits exactly null |
| `FieldSpecFactory.FromGenerator` | generator/src/main/java/com/scottlogic/deg/generator/fieldspecs/FieldSpecFactory.java:67-69 | the source and accept predicate unchanged, null allowed |
| `FieldSpecHelper.GetFieldSpecForValue` | generator/src/main/java/com/scottlogic/deg/generator/fieldspecs/FieldSpecHelper.java:12-19 | the spec admits exactly the given value; for null it only requires null; otherwise it holds a one-value whitelist and must-not-be-null; no typed restriction is set |
| `FieldSpecHelper.NullRequiredFieldSpec` | generator/src/main/java/com/scottlogic/deg/generator/fieldspecs/FieldSpecHelper.java:21-24 | only must-be-null is set, so the spec admits exactly null |
| `FieldSpecHelper.WithSetRestrictions` | generator/src/main/java/com/scottlogic/deg/generator/fieldspecs/FieldSpecHelper.java:17 | sets the set restrictions and leaves the other slots unchanged |
| `FieldSpecHelper.WithNullRestrictions` | generator/src/main/java/com/scottlogic/deg/generator/fieldspecs/FieldSpecHelper.java:18 | sets the null policy and leaves the other slots unchanged |
| `FieldSpecHelper.NegationFlipsNullness` | generator/src/test/java/com/scottlogic/deg/generator/restrictions/FieldSpecFactoryTests.java:22-32 | negating an is-null constraint gives must-not-be-null and negating that gives must-be-null; on the shapes negation produces, each policy of a negation comes only from the opposite policy |
| `FieldSpecHelper.NegatedIsNullMeansNotNull` | generator/src/test/java/com/scottlogic/deg/generator/restrictions/FieldSpecFactoryTests.java:21-35 | a negated is-null constraint maps to must-not-be-null, the policy of every spec pinned to a non-null value; an is-null constraint maps to the policy of the null spec |

## Left out

- Profile loading from files and URLs, JSON-schema validation, writing to standard output, and the web front end are I/O. They lie outside the constraint core.
- Regular-expression syntax and matching: a pattern is known only by its source text. `Pattern.compile` never fails in the model, so `PatternSyntaxException` is not modelled.
- `IsoDates.ParseLocalDateTime` accepts only unsigned four-digit years. `LocalDateTime.parse` also takes signed and longer years; those are left out.
- `IsoDates.ParseLocalDate` and `IsoDates.ParseLocalTime` model the strict ISO formats of java.time by their visible grammar. Resolver styles, locale and chronology are not modelled.
- `ConstraintReaders.Read`: `ParsedGranularity.parse` is not part of this model. The reader takes it as a parameter, so its contract says only that the granular-to reader succeeds exactly when that parser does and passes on its value or exception; which operands the real parser accepts is not modelled.
- `ProfileFields.getByName` is not part of this model. `ConstraintReaders.Read` takes it as a total function from field name to field, so a failing lookup is not modelled.
- Rules: the readers call two-argument constructors without a rule, but the constraint classes take `(field, value, rule)`. Every constraint therefore carries a rule, and `ConstraintReaders.Read` takes it as a parameter. `ConstraintRule` is not part of this model. A rule is a description or the violated form of another rule, so `violate()` never returns the rule it was given.
- `AtomicConstraints.Violate`: its promise that a violated rule differs from the original rests on the assumed rule shape above, not on `ConstraintRule` itself.
- `ConstraintProperties.ViolatedRuleDiffers`: rests on the same assumed rule shape, so it holds for the model's rules only.
- `AtomicConstraints.Negate` and `AtomicConstraints.GetFields`: the length and regex classes define neither `negate()` nor `getFields()` and inherit them from `AtomicConstraint`, which is not part of this model. Its defaults are assumed to be `new NotConstraint(this)` and the one-element collection of `getField()`. `ConstraintProperties.NegateInvolution`, `ConstraintProperties.NegateStaysWrapped`, `FieldSpecHelper.NegationFlipsNullness` and the `getFields()` clause of `ConstraintProperties.AccessorsReturnStoredValues` rest on that assumption.
- `ConstraintReaders.Read`, `ConstraintReaders.ReadInSet`, `ConstraintReaders.ReadNumericBound`, `ConstraintReaders.ReadStringLength` and `ConstraintReaders.ReadAValid`: the constructors of `IsInSetConstraint`, `IsEqualToConstantConstraint`, `IsNullConstraint`, the numeric and date-time comparison classes, `IsStringLongerThanConstraint`, `IsStringShorterThanConstraint` and `MatchesStandardConstraint` are not part of this model and are assumed to accept every operand. So an empty or null-holding set, a null numeric bound and a negative longer-than or shorter-than length are accepted, and the equal-to and null readers never fail; any check those constructors make is not modelled.
- `AtomicConstraints.HashCode`, `AtomicConstraints.GetField`, `AtomicConstraints.GetFields`, `AtomicConstraints.GetRule` and `AtomicConstraints.Negate`: `NotConstraint` is not part of this model. It is assumed to forward `getField()`, `getFields()` and `getRule()` to the constraint it negates, and its hash is a stand-in equal to the negated constraint's hash.
- The constraint classes other than the length, regex and violated ones are not part of this model. They are assumed to compare class, field and operand and to ignore the rule, as the length and regex classes do. They are also assumed to negate by wrapping themselves in a `NotConstraint`, which negates back to what it wraps.
- `AtomicConstraints.HashCode` hashes any other concrete class through `AtomicConstraints.ConcreteHash` by its field name's `String.hashCode`. This is a stand-in that keeps the hash consistent with equality; those classes' real hash codes are not modelled.
- `AtomicConstraints.ToDotLabel` and `AtomicConstraints.ToString` label the other concrete classes and `NotConstraint` with stand-in texts.
- `JavaLang.NumberText` writes a `Double` exactly only when it is a whole number below 10^7. Other doubles get their integer part and a placeholder, because the shortest-representation algorithm of `Double.toString` is not modelled.
- `JavaLang.NumberHash` uses `intValue()` for `BigInteger` and `Double` as a stand-in for the JDK's hash recipes.
- A `Double` is its exact real value: `-0.0`, `NaN` and infinities do not arise from JSON numbers and are not modelled.
- The reference-identity shortcut `this == o` in `equals` is subsumed by structural equality on immutable values.
- Type-code spellings: the class that defines them is not part of this model. Each type gets a distinct code from the profile vocabulary; the proofs rely only on the codes being distinct.
- `ConstraintReaders.DistinctValues`: an object operand is a sequence of entries, so two objects with the same entries in another order count as different values in the `HashSet`, and `AtomicConstraints.SameKind` treats them as different equal-to operands. Java maps ignore entry order.
- `Field` is not part of this model. A field is its name: fields are equal exactly when their names are, and a field hashes as its name's `String.hashCode`.
- `FieldSpecFactory.FromType` takes a field type, never `null`, so the `NullPointerException` that `fromType(null)` raises from its `switch` is not modelled.
- `DistributedList` weights: a whitelist is modelled as the plain sequence of its values.
- The default numeric and date-time restrictions and `BooleanRestrictions` are not part of this model. They are known only by which field type they restrict. `StringRestrictionsFactory.forMaxLength` is known by its maximum length.
- `Defaults.MAX_STRING_LENGTH` is not part of this model; it is taken to be 1000.
- The private constructor of `FieldSpecFactory`, which only throws, cannot be called from outside and is left out.
- `FieldSpecSource` provenance, field-spec merging and restriction intersection are not part of this model.

=== FILE: atomic_constraints.dfy ===
/** The atomic constraints of a profile as one closed sum type: one variant
    per constraint class the readers build, the negation wrapper, and the
    `ViolatedAtomicConstraint` decorator. Java's `equals`, `hashCode`,
    `toDotLabel`, `toString` and `getRule` are modelled as functions, so that
    their (not always reflexive) behaviour can be stated exactly. */
module AtomicConstraints {

  import opened Wrappers
  import opened JavaLang
  import opened Profile
  import IsoDates

  /** The rule a constraint was declared under. Violating a rule gives its
      violated counterpart. */
  datatype Rule = Rule(description: string) | ViolatedRule(original: Rule)

  /** `ConstraintRule.violate()`. */
  function Violate(r: Rule): (v: Rule)
    ensures v != r
  {
    assert r < ViolatedRule(r);
    ViolatedRule(r)
  }

  /** A regular expression, known only by its source text: `Pattern.toString()`
      returns it, and matching is not modelled. */
  datatype Pattern = Pattern(source: string)

  /** `Pattern.compile`, which remembers its source. */
  function Compile(source: string): (p: Pattern)
    ensures p.source == source
  {
    Pattern(source)
  }

  /** The generators a standard name can resolve to. */
  datatype StringGenerator = IsinStringGenerator

  datatype NumericOp = GreaterThan | GreaterThanOrEqualTo | LessThan | LessThanOrEqualTo
  datatype TemporalOp = Before | BeforeOrAt | After | AfterOrAt
  datatype LengthOp = LongerThan | ShorterThan

  /** `IsOfTypeConstraint.Types`. */
  datatype TypeName = NumericType | StringType | TemporalType

  /** What distinguishes one concrete constraint class from another: the
      class itself and the operand its constructor stores. */
  datatype Kind =
    | FormatConstraint(format: Option<string>)
    | IsEqualToConstant(requiredValue: Value)
    | IsInSet(legalValues: set<Value>)
    | MatchesRegex(regex: Pattern)
    | MatchesStandard(standard: Option<StringGenerator>)
    | NumericBound(numericOp: NumericOp, referenceNumber: Option<Number>)
    | DateTimeBound(temporalOp: TemporalOp, referenceDateTime: IsoDates.LocalDateTime)
    | IsGranularTo(granularity: Value)  // as `ParsedGranularity.parse` returns it
    | IsNull
    | IsOfType(requiredType: TypeName)
    | StringLength(lengthOp: LengthOp, referenceLength: Int32)
    | StringHasLength(referenceValue: Number)

  /** A concrete constraint (every one has a field and a rule), the
      negation wrapper, or the violated decorator. */
  datatype Constraint =
    | Atomic(field: Field, kind: Kind, rule: Rule)
    | Not(negatedConstraint: Constraint)
    | Violated(violatedConstraint: Constraint)

  /** A constraint with no violated wrapper anywhere inside it. */
  predicate Plain(c: Constraint) {
    match c
    case Violated(_) => false
    case Not(inner) => Plain(inner)
    case Atomic(_, _, _) => true
  }

  /** The shapes negation produces: any number of violated wrappers around
      either a concrete constraint or the negation of one. */
  predicate Canonical(c: Constraint) {
    match c
    case Violated(inner) => Canonical(inner)
    case Not(inner) => inner.Atomic?
    case Atomic(_, _, _) => true
  }

  /** The Java class of a concrete constraint. */
  function KindName(k: Kind): string {
    match k
    case FormatConstraint(_) => "FormatConstraint"
    case IsEqualToConstant(_) => "IsEqualToConstantConstraint"
    case IsInSet(_) => "IsInSetConstraint"
    case MatchesRegex(_) => "MatchesRegexConstraint"
    case MatchesStandard(_) => "MatchesStandardConstraint"
    case NumericBound(op, _) =>
      (match op
       case GreaterThan => "IsGreaterThanConstantConstraint"
       case GreaterThanOrEqualTo => "IsGreaterThanOrEqualToConstantConstraint"
       case LessThan => "IsLessThanConstantConstraint"
       case LessThanOrEqualTo => "IsLessThanOrEqualToConstantConstraint")
    case DateTimeBound(op, _) =>
      (match op
       case Before => "IsBeforeConstantDateTimeConstraint"
       case BeforeOrAt => "IsBeforeOrEqualToConstantDateTimeConstraint"
       case After => "IsAfterConstantDateTimeConstraint"
       case AfterOrAt => "IsAfterOrEqualToConstantDateTimeConstraint")
    case IsGranularTo(_) => "IsGranularToConstraint"
    case IsNull => "IsNullConstraint"
    case IsOfType(_) => "IsOfTypeConstraint"
    case StringLength(op, _) =>
      if op.LongerThan? then "IsStringLongerThanConstraint" else "IsStringShorterThanConstraint"
    case StringHasLength(_) => "StringHasLengthConstraint"
  }

  /** The `StringHasLengthConstraint` constructor: a missing reference value
      is refused; otherwise field, value and rule are kept as given. */
  function NewStringHasLength(field: Field, referenceValue: Option<Number>, rule: Rule)
    : (r: Result<Constraint, Exception>)
    ensures r.Err? <==> referenceValue.None?
    ensures r.Err? ==> r.error == IllegalArgument("Argument 'referenceValue' cannot be null.")
    ensures r.Ok? ==> r.value == Atomic(field, StringHasLength(referenceValue.value), rule)
  {
    if referenceValue.None? then Err(IllegalArgument("Argument 'referenceValue' cannot be null."))
    else Ok(Atomic(field, StringHasLength(referenceValue.value), rule))
  }

  /** The `MatchesRegexConstraint` constructor, which validates nothing. */
  function NewMatchesRegex(field: Field, regex: Pattern, rule: Rule): (c: Constraint)
    ensures c.Atomic? && c.kind.MatchesRegex?
    ensures c.field == field && c.kind.regex == regex && c.rule == rule
  {
    Atomic(field, MatchesRegex(regex), rule)
  }

  /** The concrete constraint at the heart of `c`, under every negation and
      decorator. */
  function Innermost(c: Constraint): (a: Constraint)
    ensures a.Atomic?
    ensures c.Atomic? ==> a == c
    ensures !c.Atomic? ==> a < c
  {
    match c
    case Violated(inner) => Innermost(inner)
    case Not(inner) => Innermost(inner)
    case Atomic(_, _, _) => c
  }

  /** How many violated decorators lie on the way from `c` to its innermost
      concrete constraint. */
  function ViolatedDepth(c: Constraint): nat {
    match c
    case Violated(inner) => ViolatedDepth(inner) + 1
    case Not(inner) => ViolatedDepth(inner)
    case Atomic(_, _, _) => 0
  }

  /** `c` without its outer violated decorators. */
  function Unwrapped(c: Constraint): (u: Constraint)
    ensures !u.Violated?
    ensures c.Violated? ==> u < c
    ensures !c.Violated? ==> u == c
  {
    if c.Violated? then Unwrapped(c.violatedConstraint) else c
  }

  /** The number of outer violated decorators of `c`. */
  function OuterDepth(c: Constraint): nat {
    if c.Violated? then OuterDepth(c.violatedConstraint) + 1 else 0
  }

  /** `negate()`. The violated decorator negates its inner constraint and
      stays wrapped. The concrete classes define no `negate()` of their own
      and inherit the default of `AtomicConstraint`, which is taken to wrap
      the constraint in a `NotConstraint` that negates back to what it
      wraps. Negation keeps the field, the reported rule and the outer
      decorator. */
  function Negate(c: Constraint): (n: Constraint)
    ensures GetField(n) == GetField(c)
    ensures GetRule(n) == GetRule(c)
    ensures c.Violated? ==> n.Violated?
  {
    match c
    case Violated(inner) => Violated(Negate(inner))
    case Not(inner) => inner
    case Atomic(_, _, _) => Not(c)
  }

  /** `getField()`: the field of the innermost concrete constraint. */
  function GetField(c: Constraint): (f: Field)
    ensures f == Innermost(c).field
  {
    match c
    case Violated(inner) => GetField(inner)
    case Not(inner) => GetField(inner)
    case Atomic(f, _, _) => f
  }

  /** `getFields()`: the decorator forwards to its inner constraint; the
      concrete classes inherit the default of `AtomicConstraint`, which is
      taken to be the one-element collection of `getField()`. */
  function GetFields(c: Constraint): (fs: seq<Field>)
    ensures fs == [GetField(c)]
  {
    match c
    case Violated(inner) => GetFields(inner)
    case Not(inner) => GetFields(inner)
    case Atomic(f, _, _) => [f]
  }

  /** `getRule()`: the violated decorator reports the violated counterpart of
      its inner constraint's rule, so the innermost rule comes out violated
      once per decorator on the way. */
  function GetRule(c: Constraint): (r: Rule)
    ensures r == ViolateTimes(Innermost(c).rule, ViolatedDepth(c))
  {
    match c
    case Violated(inner) => Violate(GetRule(inner))
    case Not(inner) => GetRule(inner)
    case Atomic(_, _, r) => r
  }

  /** Whether two concrete constraints' classes and operands are equal: a
      pattern compares by its source text, every other operand by value. */
  predicate SameKind(k: Kind, l: Kind) {
    if k.MatchesRegex? then l.MatchesRegex? && l.regex.source == k.regex.source
    else k == l
  }

  /** `a.equals(o)`. `StringHasLengthConstraint` and `MatchesRegexConstraint`
      compare class, field and operand (a pattern by its source text) and
      ignore the rule; the other concrete classes are taken to do the same.
      A negation compares what it negates. The violated decorator simply
      asks its inner constraint, which never accepts an object of the
      decorator's class. */
  function JavaEquals(a: Constraint, o: Constraint): (r: bool)
    ensures r ==> !o.Violated?
    ensures r ==> GetField(a) == GetField(o)
    ensures r ==> GetFields(a) == GetFields(o)
  {
    match a
    case Violated(inner) => JavaEquals(inner, o)
    case Not(inner) => o.Not? && JavaEquals(inner, o.negatedConstraint)
    case Atomic(f, k, _) => o.Atomic? && o.field == f && SameKind(k, o.kind)
  }

  /** `hashCode()` of a concrete constraint. The two length and regex
      classes hash `(field, operand)` with `Objects.hash`, a field by its
      name's hash. For the other concrete classes the model uses the hash of
      the field name. */
  function ConcreteHash(f: Field, k: Kind): Int32 {
    match k
    case StringHasLength(v) => ObjectsHash([StringHash(f.name), NumberHash(v)])
    case MatchesRegex(p) => ObjectsHash([StringHash(f.name), StringHash(p.source)])
    case _ => StringHash(f.name)
  }

  /** `hashCode()`: the decorator and the negation reuse the inner
      constraint's hash, so every constraint hashes as its innermost
      concrete constraint. */
  function HashCode(c: Constraint): (h: Int32)
    ensures h == ConcreteHash(Innermost(c).field, Innermost(c).kind)
    ensures Innermost(c).kind.StringHasLength? ==>
              h == ObjectsHash([StringHash(GetField(c).name), NumberHash(Innermost(c).kind.referenceValue)])
    ensures Innermost(c).kind.MatchesRegex? ==>
              h == ObjectsHash([StringHash(GetField(c).name), StringHash(Innermost(c).kind.regex.source)])
  {
    match c
    case Violated(inner) => HashCode(inner)
    case Not(inner) => HashCode(inner)
    case Atomic(f, k, _) => ConcreteHash(f, k)
  }

  /** `toDotLabel()`: `<name> length = <value>` and `<name> matches /<regex>/`
      for the two classes with their own label; the decorator shows its inner
      constraint's label, so no decorator ever shows; the other classes are
      labelled here by field name and class. */
  function ToDotLabel(c: Constraint): (s: string)
    ensures c.Violated? ==> s == ToDotLabel(Unwrapped(c))
    ensures Unwrapped(c).Atomic? && Unwrapped(c).kind.StringHasLength? ==>
              s == GetField(c).name + " length = " + NumberText(Unwrapped(c).kind.referenceValue)
    ensures Unwrapped(c).Atomic? && Unwrapped(c).kind.MatchesRegex? ==>
              s == GetField(c).name + " matches /" + Unwrapped(c).kind.regex.source + "/"
  {
    match c
    case Violated(inner) => ToDotLabel(inner)
    case Not(inner) => "NOT " + ToDotLabel(inner)
    case Atomic(f, StringHasLength(v), _) => f.name + " length = " + NumberText(v)
    case Atomic(f, MatchesRegex(p), _) => f.name + " matches /" + p.source + "/"
    case Atomic(f, k, _) => f.name + " " + KindName(k)
  }

  /** `toString()`: like the label but with the field name in backquotes;
      each outer decorator adds one `Violated: ` prefix. */
  function ToString(c: Constraint): (s: string)
    ensures c.Violated? ==> s == Repeat("Violated: ", OuterDepth(c)) + ToString(Unwrapped(c))
  {
    match c
    case Violated(inner) => "Violated: " + ToString(inner)
    case Not(inner) => "NOT " + ToString(inner)
    case Atomic(f, StringHasLength(v), _) => "`" + f.name + "` length = " + NumberText(v)
    case Atomic(f, MatchesRegex(p), _) => "`" + f.name + "` matches /" + p.source + "/"
    case Atomic(f, k, _) => "`" + f.name + "` " + KindName(k)
  }

  /** `c` inside `n` violated decorators. */
  function Wrap(c: Constraint, n: nat): (w: Constraint)
    ensures OuterDepth(w) == OuterDepth(c) + n
    ensures Unwrapped(w) == Unwrapped(c)
    ensures Innermost(w) == Innermost(c)
  {
    if n == 0 then c else Violated(Wrap(c, n - 1))
  }

  /** `r` violated `n` times. */
  function ViolateTimes(r: Rule, n: nat): (v: Rule) {
    if n == 0 then r else Violate(ViolateTimes(r, n - 1))
  }

  /** `s` written `n` times over. */
  function Repeat(s: string, n: nat): (t: string) {
    if n == 0 then "" else s + Repeat(s, n - 1)
  }
}

=== FILE: constraint_properties.dfy ===
/** What the equality, hash, negation and decorator definitions of the
    atomic constraints imply, including the consequences of
    `ViolatedAtomicConstraint` delegating `equals` to its inner constraint. */
module ConstraintProperties {

  import opened Wrappers
  import opened Digits
  import opened JavaLang
  import opened Profile
  import opened AtomicConstraints

  /** Every constraint without a violated wrapper inside equals itself. */
  lemma {:induction false} EqualsReflexiveOnPlain(c: Constraint)
    requires Plain(c)
    ensures JavaEquals(c, c)
  {
    if c.Not? {
      EqualsReflexiveOnPlain(c.negatedConstraint);
    }
  }

  /** Because the decorator forwards `equals` to its inner constraint, a
      wrapper equals the bare constraint it wraps, the bare constraint does
      not equal the wrapper (equality is not symmetric), no wrapper equals
      itself, and no wrapper equals any other wrapper. */
  lemma WrapperEqualityConsequences(c: Constraint)
    requires Plain(c)
    ensures JavaEquals(Violated(c), c)
    ensures !JavaEquals(c, Violated(c))
    ensures !JavaEquals(Violated(c), Violated(c))
    ensures forall y :: !JavaEquals(Violated(c), Violated(y))
  {
    EqualsReflexiveOnPlain(c);
  }

  /** After construction, `getField` and `getRule` return what was passed to
      the constructor, for both the length and the regex constraint. */
  lemma AccessorsReturnStoredValues(f: Field, v: Number, p: Pattern, rule: Rule)
    ensures NewStringHasLength(f, Some(v), rule).Ok?
    ensures GetField(NewStringHasLength(f, Some(v), rule).value) == f
    ensures GetRule(NewStringHasLength(f, Some(v), rule).value) == rule
    ensures GetFields(NewStringHasLength(f, Some(v), rule).value) == [f]
    ensures GetField(NewMatchesRegex(f, p, rule)) == f
    ensures GetRule(NewMatchesRegex(f, p, rule)) == rule
  {
  }

  /** Equal constraints have equal hash codes, wrappers included. */
  lemma {:induction false} HashConsistentWithEquals(a: Constraint, o: Constraint)
    requires JavaEquals(a, o)
    ensures HashCode(a) == HashCode(o)
  {
    match a
    case Violated(inner) =>
      HashConsistentWithEquals(inner, o);
    case Not(inner) =>
      HashConsistentWithEquals(inner, o.negatedConstraint);
    case Atomic(_, _, _) =>
  }

  /** A concrete constraint's equality never looks at a rule, on either
      side of the comparison. */
  lemma EqualityIgnoresRule(a: Constraint, o: Constraint, r1: Rule, r2: Rule)
    requires a.Atomic? && o.Atomic?
    ensures JavaEquals(a, o) == JavaEquals(a.(rule := r1), o.(rule := r2))
  {
  }

  /** Two regex constraints are equal exactly when they name the same field
      and their patterns have the same source text, whatever their rules and
      however often the text was compiled. */
  lemma RegexEqualityIsTextual(f: Field, g: Field, s: string, t: string, r1: Rule, r2: Rule)
    ensures JavaEquals(NewMatchesRegex(f, Compile(s), r1), NewMatchesRegex(g, Compile(t), r2))
            <==> f == g && s == t
  {
  }

  /** Two length constraints are equal exactly when they name the same field
      and hold equal boxed numbers; numbers of different boxed kinds are
      never equal, so an `Integer` 5 and a `Long` 5 make different
      constraints. */
  lemma HasLengthEqualityIsByValue(f: Field, g: Field, v: Number, w: Number, r1: Rule, r2: Rule)
    ensures JavaEquals(Atomic(f, StringHasLength(v), r1), Atomic(g, StringHasLength(w), r2))
            <==> f == g && v == w
    ensures !JavaEquals(Atomic(f, StringHasLength(Integer(5)), r1), Atomic(f, StringHasLength(Long(5)), r1))
  {
  }

  /** Against any object at all, a length constraint is equal exactly to a
      length constraint of the same class on the same field with an equal
      number: never to a negation, a violated decorator or another class. */
  lemma HasLengthEqualsOnlyLengths(f: Field, v: Number, r: Rule, o: Constraint)
    ensures JavaEquals(Atomic(f, StringHasLength(v), r), o)
            <==> o.Atomic? && o.field == f && o.kind == StringHasLength(v)
  {
  }

  /** Against any object at all, a regex constraint is equal exactly to a
      regex constraint on the same field whose pattern has the same source
      text. */
  lemma RegexEqualsOnlyRegexes(f: Field, p: Pattern, r: Rule, o: Constraint)
    ensures JavaEquals(Atomic(f, MatchesRegex(p), r), o)
            <==> o.Atomic? && o.field == f && o.kind.MatchesRegex? && o.kind.regex.source == p.source
  {
  }

  /** Negation is an involution on every shape negation produces, and it
      produces only such shapes. */
  lemma {:induction false} NegateInvolution(c: Constraint)
    requires Canonical(c)
    ensures Canonical(Negate(c))
    ensures Negate(Negate(c)) == c
  {
    if c.Violated? {
      NegateInvolution(c.violatedConstraint);
    }
  }

  /** Negating a constraint inside any number of violated decorators negates
      the constraint and keeps every decorator. */
  lemma {:induction false} NegateStaysWrapped(c: Constraint, n: nat)
    ensures Negate(Wrap(c, n)) == Wrap(Negate(c), n)
  {
    if n > 0 {
      NegateStaysWrapped(c, n - 1);
    }
  }

  /** However many violated decorators surround a constraint, its field,
      fields, label and hash code are the inner constraint's. */
  lemma WrapKeepsInnerView(c: Constraint, n: nat)
    ensures GetField(Wrap(c, n)) == GetField(c)
    ensures GetFields(Wrap(c, n)) == GetFields(c)
    ensures ToDotLabel(Wrap(c, n)) == ToDotLabel(c)
    ensures HashCode(Wrap(c, n)) == HashCode(c)
  {
    if n > 0 {
      assert Wrap(c, n).Violated?;
    }
  }

  /** A wrapped constraint compares exactly as the inner constraint does. */
  lemma {:induction false} WrapKeepsEquality(c: Constraint, n: nat, o: Constraint)
    ensures JavaEquals(Wrap(c, n), o) == JavaEquals(c, o)
  {
    if n > 0 {
      WrapKeepsEquality(c, n - 1, o);
    }
  }

  /** What the decorators do change: the rule is violated once per
      decorator. */
  lemma {:induction false} WrapViolatesRule(c: Constraint, n: nat)
    ensures GetRule(Wrap(c, n)) == ViolateTimes(GetRule(c), n)
  {
    if n > 0 {
      WrapViolatesRule(c, n - 1);
      assert Wrap(c, n) == Violated(Wrap(c, n - 1));
    }
  }

  /** `toString` gains one `Violated: ` prefix per decorator. */
  lemma {:induction false} WrapPrefixesText(c: Constraint, n: nat)
    ensures ToString(Wrap(c, n)) == Repeat("Violated: ", n) + ToString(c)
  {
    if n > 0 {
      WrapPrefixesText(c, n - 1);
      PrefixOneMore(Wrap(c, n - 1), Repeat("Violated: ", n - 1), ToString(c));
      assert Wrap(c, n) == Violated(Wrap(c, n - 1));
    }
  }

  /** One more decorator puts one more prefix in front of the text. */
  lemma PrefixOneMore(inner: Constraint, prefixes: string, rest: string)
    requires ToString(inner) == prefixes + rest
    ensures ToString(Violated(inner)) == ("Violated: " + prefixes) + rest
  {
    assert "Violated: " + (prefixes + rest) == ("Violated: " + prefixes) + rest;
  }

  /** Violating a rule any positive number of times never gives back the
      rule. */
  lemma {:induction false} ViolatedRuleDiffers(r: Rule, n: nat)
    requires n > 0
    ensures ViolateTimes(r, n) != r
  {
    if n > 1 {
      ViolatedRuleDiffers(r, n - 1);
      RuleRank(r, n);
    }
  }

  lemma {:induction false} RuleRank(r: Rule, n: nat)
    requires n > 0
    ensures r < ViolateTimes(r, n)
  {
    if n > 1 {
      RuleRank(r, n - 1);
    }
  }

  /** The label of a length constraint is the field name, ` length = `, and
      the reference value's text; for an integral value the label's tail
      reads back as that value. */
  lemma HasLengthLabel(f: Field, v: Number, rule: Rule)
    requires !v.Double?
    ensures (var dot := ToDotLabel(Atomic(f, StringHasLength(v), rule));
             && dot[..|f.name|] == f.name
             && dot[|f.name|..|f.name| + 10] == " length = "
             && ParseDecimal(dot[|f.name| + 10..]) == Some(Exact(v).Floor))
  {
    var dot := ToDotLabel(Atomic(f, StringHasLength(v), rule));
    assert dot[|f.name| + 10..] == NumberText(v);
    IntegralTextRoundTrip(v);
  }

  /** The label of a regex constraint is the field name, ` matches /`, the
      pattern text and a closing `/`, so the pattern text can be read back. */
  lemma RegexLabel(f: Field, p: Pattern, rule: Rule)
    ensures (var dot := ToDotLabel(Atomic(f, MatchesRegex(p), rule));
             && |dot| == |f.name| + |p.source| + 11
             && dot[..|f.name|] == f.name
             && dot[|f.name|..|f.name| + 10] == " matches /"
             && dot[|f.name| + 10..|dot| - 1] == p.source
             && dot[|dot| - 1] == '/')
  {
  }

}

=== FILE: constraint_readers.dfy ===
/** `AtomicConstraintReaderLookup`: a table, filled once, from a constraint
    type code to the reader that turns a constraint record into an atomic
    constraint, and the operand conversions those readers perform. */
module ConstraintReaders {

  import opened Wrappers
  import opened JavaLang
  import opened Profile
  import opened IsoDates
  import C = AtomicConstraints

  /** The constraint types that have a reader (`AtomicConstraintType`). */
  datatype ConstraintType =
    | FormattedAs
    | IsEqualToConstant
    | IsInSet
    | MatchesRegex
    | AValid
    | IsGreaterThanConstant
    | IsGreaterThanOrEqualToConstant
    | IsLessThanConstant
    | IsLessThanOrEqualToConstant
    | IsBeforeConstantDateTime
    | IsBeforeOrEqualToConstantDateTime
    | IsAfterConstantDateTime
    | IsAfterOrEqualToConstantDateTime
    | IsGranularTo
    | IsNull
    | IsOfType
    | IsStringLongerThan
    | IsStringShorterThan
    | HasLength

  /** The profile spelling of each constraint type. */
  function TypeCode(t: ConstraintType): (code: string) {
    match t
    case FormattedAs => "formattedAs"
    case IsEqualToConstant => "equalTo"
    case IsInSet => "inSet"
    case MatchesRegex => "matchingRegex"
    case AValid => "aValid"
    case IsGreaterThanConstant => "greaterThan"
    case IsGreaterThanOrEqualToConstant => "greaterThanOrEqualTo"
    case IsLessThanConstant => "lessThan"
    case IsLessThanOrEqualToConstant => "lessThanOrEqualTo"
    case IsBeforeConstantDateTime => "before"
    case IsBeforeOrEqualToConstantDateTime => "beforeOrAt"
    case IsAfterConstantDateTime => "after"
    case IsAfterOrEqualToConstantDateTime => "afterOrAt"
    case IsGranularTo => "granularTo"
    case IsNull => "null"
    case IsOfType => "ofType"
    case IsStringLongerThan => "longerThan"
    case IsStringShorterThan => "shorterThan"
    case HasLength => "ofLength"
  }

  /** Reads a spelling back to its constraint type. */
  function TypeOfCode(code: string): (r: Option<ConstraintType>)
    ensures r.Some? ==> TypeCode(r.value) == code
  {
    if code == "formattedAs" then Some(FormattedAs)
    else if code == "equalTo" then Some(IsEqualToConstant)
    else if code == "inSet" then Some(IsInSet)
    else if code == "matchingRegex" then Some(MatchesRegex)
    else if code == "aValid" then Some(AValid)
    else if code == "greaterThan" then Some(IsGreaterThanConstant)
    else if code == "greaterThanOrEqualTo" then Some(IsGreaterThanOrEqualToConstant)
    else if code == "lessThan" then Some(IsLessThanConstant)
    else if code == "lessThanOrEqualTo" then Some(IsLessThanOrEqualToConstant)
    else if code == "before" then Some(IsBeforeConstantDateTime)
    else if code == "beforeOrAt" then Some(IsBeforeOrEqualToConstantDateTime)
    else if code == "after" then Some(IsAfterConstantDateTime)
    else if code == "afterOrAt" then Some(IsAfterOrEqualToConstantDateTime)
    else if code == "granularTo" then Some(IsGranularTo)
    else if code == "null" then Some(IsNull)
    else if code == "ofType" then Some(IsOfType)
    else if code == "longerThan" then Some(IsStringLongerThan)
    else if code == "shorterThan" then Some(IsStringShorterThan)
    else if code == "ofLength" then Some(HasLength)
    else None
  }

  /** Distinct constraint types have distinct spellings. */
  lemma TypeCodeInjective(t: ConstraintType)
    ensures TypeOfCode(TypeCode(t)) == Some(t)
  {
    if t in {FormattedAs, IsEqualToConstant, IsInSet, MatchesRegex, AValid,
             IsGreaterThanConstant, IsGreaterThanOrEqualToConstant} {
      FirstSpellingsReadBack(t);
    } else if t in {IsLessThanConstant, IsLessThanOrEqualToConstant,
                    IsBeforeConstantDateTime, IsBeforeOrEqualToConstantDateTime,
                    IsAfterConstantDateTime, IsAfterOrEqualToConstantDateTime} {
      MiddleSpellingsReadBack(t);
    } else {
      LastSpellingsReadBack(t);
    }
  }

  lemma FirstSpellingsReadBack(t: ConstraintType)
    requires
      t in {FormattedAs, IsEqualToConstant, IsInSet, MatchesRegex, AValid, IsGreaterThanConstant,
            IsGreaterThanOrEqualToConstant}
    ensures TypeOfCode(TypeCode(t)) == Some(t)
  {
    match t
    case FormattedAs =>
    case IsEqualToConstant =>
    case IsInSet =>
    case MatchesRegex =>
    case AValid =>
    case IsGreaterThanConstant =>
    case IsGreaterThanOrEqualToConstant =>
  }

  lemma MiddleSpellingsReadBack(t: ConstraintType)
    requires
      t in {IsLessThanConstant, IsLessThanOrEqualToConstant, IsBeforeConstantDateTime,
            IsBeforeOrEqualToConstantDateTime, IsAfterConstantDateTime,
            IsAfterOrEqualToConstantDateTime}
    ensures TypeOfCode(TypeCode(t)) == Some(t)
  {
    match t
    case IsLessThanConstant =>
    case IsLessThanOrEqualToConstant =>
    case IsBeforeConstantDateTime =>
    case IsBeforeOrEqualToConstantDateTime =>
    case IsAfterConstantDateTime =>
    case IsAfterOrEqualToConstantDateTime =>
  }

  lemma LastSpellingsReadBack(t: ConstraintType)
    requires
      t in {IsGranularTo, IsNull, IsOfType, IsStringLongerThan, IsStringShorterThan, HasLength}
    ensures TypeOfCode(TypeCode(t)) == Some(t)
  {
    match t
    case IsGranularTo =>
    case IsNull =>
    case IsOfType =>
    case IsStringLongerThan =>
    case IsStringShorterThan =>
    case HasLength =>
  }

  /** The `add` calls of the static initializer, in source order. */
  const Registrations: seq<ConstraintType> := [
    FormattedAs, IsEqualToConstant, IsInSet, MatchesRegex, AValid,
    IsGreaterThanConstant, IsGreaterThanOrEqualToConstant,
    IsLessThanConstant, IsLessThanOrEqualToConstant,
    IsBeforeConstantDateTime, IsBeforeOrEqualToConstantDateTime,
    IsAfterConstantDateTime, IsAfterOrEqualToConstantDateTime,
    IsGranularTo, IsNull, IsOfType,
    IsStringLongerThan, IsStringShorterThan, HasLength]

  function CodesOf(types: seq<ConstraintType>): set<string> {
    set t | t in types :: TypeCode(t)
  }

  /** Runs `add(typeCode, reader)` for each type in turn; a later `put`
      under the same code would replace an earlier one. */
  function AddAll(table: map<string, ConstraintType>, types: seq<ConstraintType>)
    : (r: map<string, ConstraintType>)
    ensures r.Keys == table.Keys + CodesOf(types)
    ensures forall t :: t in types ==> r[TypeCode(t)] == t
    ensures forall code :: code in table && code !in CodesOf(types) ==> r[code] == table[code]
    decreases |types|
  {
    if |types| == 0 then table
    else
      var t := types[0];
      TypeCodeInjective(t);
      var r := AddAll(table[TypeCode(t) := t], types[1..]);
      assert forall u :: u in types ==> u == t || u in types[1..];
      assert t !in types[1..] ==> TypeCode(t) !in CodesOf(types[1..]) by {
        forall u | u in types[1..] ensures TypeCode(u) != TypeCode(t) || u == t {
          TypeCodeInjective(u);
        }
      }
      r
  }

  /** `typeCodeToSpecificReader` once the static initializer has run. It is
      a constant: nothing writes to it afterwards. */
  const TypeCodeToReader: map<string, ConstraintType> := AddAll(map[], Registrations)

  /** Every key of the table maps to the reader registered under it. */
  lemma KeyIsReadersCode(typeCode: string)
    requires typeCode in TypeCodeToReader
    ensures TypeCode(TypeCodeToReader[typeCode]) == typeCode
  {
    assert typeCode in CodesOf(Registrations);
    var t :| t in Registrations && TypeCode(t) == typeCode;
    assert TypeCodeToReader[TypeCode(t)] == t;
  }

  /** `getByTypeCode`: the registered reader, or `None` (Java's `null`). */
  function GetByTypeCode(typeCode: string): (r: Option<ConstraintType>)
    ensures r.Some? ==> TypeCode(r.value) == typeCode
  {
    if typeCode in TypeCodeToReader then
      KeyIsReadersCode(typeCode);
      Some(TypeCodeToReader[typeCode])
    else None
  }

  /** `(String) value`: a null reference casts to `null`, anything but a
      string fails. */
  function CastToString(v: Value): (r: Result<Option<string>, Exception>)
    ensures r.Ok? <==> v.Null? || v.Str?
    ensures v.Str? ==> r == Ok(Some(v.s))
    ensures v.Null? ==> r == Ok(None)
  {
    match v
    case Null => Ok(None)
    case Str(s) => Ok(Some(s))
    case _ => Err(ClassCast("java.lang.String"))
  }

  /** `(Number) value`. */
  function CastToNumber(v: Value): (r: Result<Option<Number>, Exception>)
    ensures r.Ok? <==> v.Null? || v.Num?
    ensures v.Num? ==> r == Ok(Some(v.n))
    ensures v.Null? ==> r == Ok(None)
  {
    match v
    case Null => Ok(None)
    case Num(n) => Ok(Some(n))
    case _ => Err(ClassCast("java.lang.Number"))
  }

  /** `parseDate`: up to ten characters are read as a calendar date at the
      start of that day, longer text as a full local date-time. */
  function ParseDate(value: string): (r: Result<LocalDateTime, Exception>)
    ensures r.Err? ==> r.error == DateTimeParse(value)
    ensures r.Ok? ==> ValidDateTime(r.value)
    ensures |value| <= 10 && r.Ok? ==>
              r.value.time == Midnight && FormatDate(r.value.date) == value
    ensures |value| <= 10 ==> (r.Ok? <==> ParseLocalDate(value).Some?)
    ensures |value| > 10 ==> (r.Ok? <==> ParseLocalDateTime(value).Some?)
    ensures |value| > 10 && r.Ok? ==> FormatDate(r.value.date) == value[..10]
  {
    if |value| > 10 then
      var dt := ParseLocalDateTime(value);
      if dt.Some? then Ok(dt.value) else Err(DateTimeParse(value))
    else
      var d := ParseLocalDate(value);
      if d.Some? then Ok(AtStartOfDay(d.value)) else Err(DateTimeParse(value))
  }

  /** The wire name of each `IsOfTypeConstraint.Types` value. */
  function TypeWireName(t: C.TypeName): string {
    match t
    case NumericType => "numeric"
    case StringType => "string"
    case TemporalType => "temporal"
  }

  /** The set `new HashSet<>(values)` holds. */
  function DistinctValues(values: seq<Value>): (s: set<Value>)
    ensures forall v :: v in s <==> v in values
  {
    set v | v in values
  }

  function ReadInSet(dto: ConstraintDto, field: Field, rule: C.Rule): (r: Result<C.Constraint, Exception>)
    ensures r.Ok? ==> r.value.Atomic? && r.value.field == field && r.value.rule == rule
    ensures r.Ok? <==> dto.values.Some?
    ensures r.Err? ==> r.error == NullPointer
    ensures r.Ok? ==> r.value.kind.IsInSet? && forall v :: v in r.value.kind.legalValues <==> v in dto.values.value
  {
    if dto.values.None? then Err(NullPointer)
    else Ok(C.Atomic(field, C.IsInSet(DistinctValues(dto.values.value)), rule))
  }

  function ReadMatchesRegex(dto: ConstraintDto, field: Field, rule: C.Rule)
    : (r: Result<C.Constraint, Exception>)
    ensures r.Ok? ==> r.value.Atomic? && r.value.field == field && r.value.rule == rule
    ensures r.Ok? <==> dto.value.Str?
    ensures dto.value.Null? ==> r == Err(NullPointer)
    ensures r.Ok? ==> r.value.kind.MatchesRegex? && r.value.kind.regex.source == dto.value.s
  {
    var source :- CastToString(dto.value);
    if source.None? then Err(NullPointer)
    else Ok(C.NewMatchesRegex(field, C.Compile(source.value), rule))
  }

  /** `standardNameToStringGenerator.get((String) value)`: only `ISIN` has a
      generator; any other name, and a null one, finds none and is not an
      error. */
  function ReadAValid(dto: ConstraintDto, field: Field, rule: C.Rule)
    : (r: Result<C.Constraint, Exception>)
    ensures r.Ok? ==> r.value.Atomic? && r.value.field == field && r.value.rule == rule
    ensures r.Ok? <==> dto.value.Null? || dto.value.Str?
    ensures r.Ok? ==> r.value.kind.MatchesStandard?
    ensures r.Ok? ==> (r.value.kind.standard.Some? <==> dto.value == Str("ISIN"))
  {
    var name :- CastToString(dto.value);
    var generator := if name == Some("ISIN") then Some(C.IsinStringGenerator) else None;
    Ok(C.Atomic(field, C.MatchesStandard(generator), rule))
  }

  function ReadNumericBound(op: C.NumericOp, dto: ConstraintDto, field: Field, rule: C.Rule)
    : (r: Result<C.Constraint, Exception>)
    ensures r.Ok? ==> r.value.Atomic? && r.value.field == field && r.value.rule == rule
    ensures r.Ok? <==> dto.value.Null? || dto.value.Num?
    ensures r.Ok? ==> r.value.kind.NumericBound? && r.value.kind.numericOp == op
    ensures r.Ok? ==> ClassOf(r.value) == Some(NumericBoundType(op))
    ensures r.Ok? && dto.value.Num? ==> r.value.kind.referenceNumber == Some(dto.value.n)
  {
    var n :- CastToNumber(dto.value);
    Ok(C.Atomic(field, C.NumericBound(op, n), rule))
  }

  /** The four before/after readers: `parseDate(value.toString())`. */
  function ReadDateTimeBound(op: C.TemporalOp, dto: ConstraintDto, field: Field, rule: C.Rule)
    : (r: Result<C.Constraint, Exception>)
    ensures r.Ok? ==> r.value.Atomic? && r.value.field == field && r.value.rule == rule
    ensures dto.value.Null? ==> r == Err(NullPointer)
    ensures !dto.value.Null? ==> (r.Ok? <==> ParseDate(Text(dto.value)).Ok?)
    ensures r.Ok? ==> ClassOf(r.value) == Some(DateTimeBoundType(op))
    ensures r.Ok? ==> r.value.kind.DateTimeBound? && r.value.kind.temporalOp == op
                      && r.value.kind.referenceDateTime == ParseDate(Text(dto.value)).value
  {
    if dto.value.Null? then Err(NullPointer)
    else
      var instant :- ParseDate(Text(dto.value));
      Ok(C.Atomic(field, C.DateTimeBound(op, instant), rule))
  }

  /** The type reader's `switch`: exactly `numeric`, `string` and
      `temporal` are known. */
  function ReadOfType(dto: ConstraintDto, field: Field, rule: C.Rule)
    : (r: Result<C.Constraint, Exception>)
    ensures r.Ok? ==> r.value.Atomic? && r.value.field == field && r.value.rule == rule
    ensures r.Ok? <==> dto.value.Str? && dto.value.s in {"numeric", "string", "temporal"}
    ensures r.Ok? ==> r.value.kind.IsOfType? && TypeWireName(r.value.kind.requiredType) == dto.value.s
    ensures dto.value.Str? && r.Err? ==>
              r.error == InvalidProfile("Unrecognised type in type constraint: " + dto.value.s)
    ensures dto.value.Null? ==> r == Err(NullPointer)
  {
    var name :- CastToString(dto.value);
    if name.None? then Err(NullPointer)
    else if name.value == "numeric" then Ok(C.Atomic(field, C.IsOfType(C.NumericType), rule))
    else if name.value == "string" then Ok(C.Atomic(field, C.IsOfType(C.StringType), rule))
    else if name.value == "temporal" then Ok(C.Atomic(field, C.IsOfType(C.TemporalType), rule))
    else Err(InvalidProfile("Unrecognised type in type constraint: " + name.value))
  }

  /** `((Number) value).intValue()`, with no check that the number is whole,
      non-negative or within `int` range. */
  function ReadLength(dto: ConstraintDto): (r: Result<Int32, Exception>)
    ensures r.Ok? <==> dto.value.Num?
    ensures dto.value.Null? ==> r == Err(NullPointer)
    ensures r.Ok? ==> r.value == IntValue(dto.value.n)
  {
    var n :- CastToNumber(dto.value);
    if n.None? then Err(NullPointer) else Ok(IntValue(n.value))
  }

  function ReadStringLength(op: C.LengthOp, dto: ConstraintDto, field: Field, rule: C.Rule)
    : (r: Result<C.Constraint, Exception>)
    ensures r.Ok? ==> r.value.Atomic? && r.value.field == field && r.value.rule == rule
    ensures r.Ok? <==> dto.value.Num?
    ensures r.Ok? ==> r.value.kind.StringLength? && r.value.kind.lengthOp == op
                      && r.value.kind.referenceLength == IntValue(dto.value.n)
  {
    var length :- ReadLength(dto);
    Ok(C.Atomic(field, C.StringLength(op, length), rule))
  }

  /** The has-length reader boxes the truncated length as an `Integer`, so
      the constructor's null check always passes. */
  function ReadHasLength(dto: ConstraintDto, field: Field, rule: C.Rule)
    : (r: Result<C.Constraint, Exception>)
    ensures r.Ok? ==> r.value.Atomic? && r.value.field == field && r.value.rule == rule
    ensures r.Ok? <==> dto.value.Num?
    ensures r.Ok? ==> r.value.kind.StringHasLength?
                      && r.value.kind.referenceValue == Integer(IntValue(dto.value.n))
  {
    var length :- ReadLength(dto);
    C.NewStringHasLength(field, Some(Integer(length)), rule)
  }

  /** The class each reader builds. */
  function ClassOf(c: C.Constraint): Option<ConstraintType> {
    match c
    case Atomic(_, k, _) => Some(KindType(k))
    case Not(_) => None
    case Violated(_) => None
  }

  function NumericBoundType(op: C.NumericOp): ConstraintType {
    match op
    case GreaterThan => IsGreaterThanConstant
    case GreaterThanOrEqualTo => IsGreaterThanOrEqualToConstant
    case LessThan => IsLessThanConstant
    case LessThanOrEqualTo => IsLessThanOrEqualToConstant
  }

  function DateTimeBoundType(op: C.TemporalOp): ConstraintType {
    match op
    case Before => IsBeforeConstantDateTime
    case BeforeOrAt => IsBeforeOrEqualToConstantDateTime
    case After => IsAfterConstantDateTime
    case AfterOrAt => IsAfterOrEqualToConstantDateTime
  }

  /** The constraint type whose reader builds a concrete constraint of
      kind `k`. */
  function KindType(k: C.Kind): ConstraintType {
    match k
    case FormatConstraint(_) => FormattedAs
    case IsEqualToConstant(_) => IsEqualToConstant
    case IsInSet(_) => IsInSet
    case MatchesRegex(_) => MatchesRegex
    case MatchesStandard(_) => AValid
    case NumericBound(op, _) => NumericBoundType(op)
    case DateTimeBound(op, _) => DateTimeBoundType(op)
    case IsGranularTo(_) => IsGranularTo
    case IsNull => IsNull
    case IsOfType(_) => IsOfType
    case StringLength(op, _) =>
      if op.LongerThan? then IsStringLongerThan else IsStringShorterThan
    case StringHasLength(_) => HasLength
  }

  /** The types whose reader compares against a number. */
  predicate IsNumericBound(t: ConstraintType) {
    t in {IsGreaterThanConstant, IsGreaterThanOrEqualToConstant,
          IsLessThanConstant, IsLessThanOrEqualToConstant}
  }

  /** The types whose reader compares against an instant. */
  predicate IsDateTimeBound(t: ConstraintType) {
    t in {IsBeforeConstantDateTime, IsBeforeOrEqualToConstantDateTime,
          IsAfterConstantDateTime, IsAfterOrEqualToConstantDateTime}
  }

  /** The types whose reader takes a string length. */
  predicate IsLength(t: ConstraintType) {
    t in {IsStringLongerThan, IsStringShorterThan, HasLength}
  }

  /** The four numeric bound readers. */
  function ReadNumericBoundOf(t: ConstraintType, dto: ConstraintDto, field: Field, rule: C.Rule)
    : (r: Result<C.Constraint, Exception>)
    requires IsNumericBound(t)
    ensures r.Ok? ==> ClassOf(r.value) == Some(t)
    ensures r.Ok? ==> C.GetField(r.value) == field && C.GetRule(r.value) == rule
  {
    match t
    case IsGreaterThanConstant => ReadNumericBound(C.GreaterThan, dto, field, rule)
    case IsGreaterThanOrEqualToConstant => ReadNumericBound(C.GreaterThanOrEqualTo, dto, field, rule)
    case IsLessThanConstant => ReadNumericBound(C.LessThan, dto, field, rule)
    case IsLessThanOrEqualToConstant => ReadNumericBound(C.LessThanOrEqualTo, dto, field, rule)
  }

  /** The four before/after readers. */
  function ReadDateTimeBoundOf(t: ConstraintType, dto: ConstraintDto, field: Field, rule: C.Rule)
    : (r: Result<C.Constraint, Exception>)
    requires IsDateTimeBound(t)
    ensures r.Ok? ==> ClassOf(r.value) == Some(t)
    ensures r.Ok? ==> C.GetField(r.value) == field && C.GetRule(r.value) == rule
  {
    match t
    case IsBeforeConstantDateTime => ReadDateTimeBound(C.Before, dto, field, rule)
    case IsBeforeOrEqualToConstantDateTime => ReadDateTimeBound(C.BeforeOrAt, dto, field, rule)
    case IsAfterConstantDateTime => ReadDateTimeBound(C.After, dto, field, rule)
    case IsAfterOrEqualToConstantDateTime => ReadDateTimeBound(C.AfterOrAt, dto, field, rule)
  }

  /** The three length readers. */
  function ReadLengthBound(t: ConstraintType, dto: ConstraintDto, field: Field, rule: C.Rule)
    : (r: Result<C.Constraint, Exception>)
    requires IsLength(t)
    ensures r.Ok? ==> ClassOf(r.value) == Some(t)
    ensures r.Ok? ==> C.GetField(r.value) == field && C.GetRule(r.value) == rule
  {
    match t
    case IsStringLongerThan => ReadStringLength(C.LongerThan, dto, field, rule)
    case IsStringShorterThan => ReadStringLength(C.ShorterThan, dto, field, rule)
    case HasLength => ReadHasLength(dto, field, rule)
  }

  /** The reader registered for `t`, applied to a record. The field is
      resolved through `fields` (`ProfileFields.getByName`), and a
      granularity operand is parsed by `parseGranularity`
      (`ParsedGranularity.parse`), whose failure the reader passes on. */
  function Read(t: ConstraintType, dto: ConstraintDto, fields: string -> Field,
                parseGranularity: Value -> Result<Value, Exception>, rule: C.Rule)
    : (r: Result<C.Constraint, Exception>)
    ensures r.Ok? ==> ClassOf(r.value) == Some(t)
    ensures r.Ok? ==> C.GetField(r.value) == fields(dto.field) && C.GetRule(r.value) == rule
    ensures t in {IsEqualToConstant, IsNull} ==> r.Ok?
    ensures t == IsGranularTo ==> (r.Ok? <==> parseGranularity(dto.value).Ok?)
    ensures t == IsGranularTo && r.Ok? ==> r.value.kind.granularity == parseGranularity(dto.value).value
    ensures t == IsGranularTo && r.Err? ==> r.error == parseGranularity(dto.value).error
  {
    var field := fields(dto.field);
    if IsNumericBound(t) then ReadNumericBoundOf(t, dto, field, rule)
    else if IsDateTimeBound(t) then ReadDateTimeBoundOf(t, dto, field, rule)
    else if IsLength(t) then ReadLengthBound(t, dto, field, rule)
    else match t
      case FormattedAs =>
        var format :- CastToString(dto.value);
        Ok(C.Atomic(field, C.FormatConstraint(format), rule))
      case IsEqualToConstant => Ok(C.Atomic(field, C.IsEqualToConstant(dto.value), rule))
      case IsInSet => ReadInSet(dto, field, rule)
      case MatchesRegex => ReadMatchesRegex(dto, field, rule)
      case AValid => ReadAValid(dto, field, rule)
      case IsGranularTo =>
        var granularity :- parseGranularity(dto.value);
        Ok(C.Atomic(field, C.IsGranularTo(granularity), rule))
      case IsNull => Ok(C.Atomic(field, C.IsNull, rule))
      case IsOfType => ReadOfType(dto, field, rule)
  }
}

=== FILE: digits.dfy ===
/** Decimal digit strings: reading them, writing them zero-padded to a fixed
    width, and writing an integer the way `Integer.toString` does. Shared by
    the date parser and by the constraint labels. */
module Digits {

  import opened Wrappers

  predicate IsDigit(c: char) {
    '0' <= c <= '9'
  }

  predicate AllDigits(s: string) {
    forall i :: 0 <= i < |s| ==> IsDigit(s[i])
  }

  function Pow10(n: nat): (r: nat)
    ensures r >= 1
  {
    if n == 0 then 1 else 10 * Pow10(n - 1)
  }

  function DigitChar(d: nat): (c: char)
    requires d < 10
    ensures IsDigit(c)
    ensures c as int - '0' as int == d
  {
    (d + '0' as int) as char
  }

  /** The value of a string of decimal digits, most significant first. */
  function DigitsValue(s: string): (n: nat)
    requires AllDigits(s)
    ensures n < Pow10(|s|)
  {
    if |s| == 0 then 0
    else DigitsValue(s[..|s| - 1]) * 10 + (s[|s| - 1] as int - '0' as int)
  }

  lemma Pow10Nine()
    ensures Pow10(9) == 1_000_000_000
  {
    assert Pow10(1) == 10;
    assert Pow10(3) == 1000;
    assert Pow10(6) == 1_000_000;
  }

  /** `n` zero digits. */
  function Zeros(n: nat): (s: string)
    ensures |s| == n && AllDigits(s)
  {
    seq(n, _ => '0')
  }

  /** The value of two digits. */
  lemma DigitsValueTwo(a: char, b: char)
    requires IsDigit(a) && IsDigit(b)
    ensures DigitsValue([a, b]) == (a as int - '0' as int) * 10 + (b as int - '0' as int)
  {
    assert [a, b][..1] == [a];
    assert [a][..0] == [];
  }

  /** The value of four digits, from the values of its two halves. */
  lemma DigitsValueFour(a: char, b: char, c: char, d: char)
    requires IsDigit(a) && IsDigit(b) && IsDigit(c) && IsDigit(d)
    ensures DigitsValue([a, b, c, d]) == DigitsValue([a, b]) * 100 + DigitsValue([c, d])
  {
    assert [a, b, c, d][..3] == [a, b, c];
    assert [a, b, c][..2] == [a, b];
    DigitsValueTwo(a, b);
    DigitsValueTwo(c, d);
  }

  /** `n` written with exactly `width` digits, with leading zeros. */
  function PadDigits(n: nat, width: nat): (s: string)
    requires n < Pow10(width)
    ensures |s| == width
    ensures AllDigits(s)
  {
    if width == 0 then ""
    else PadDigits(n / 10, width - 1) + [DigitChar(n % 10)]
  }

  /** `n` in decimal with no leading zeros. */
  function NatText(n: nat): (s: string)
    ensures 0 < |s|
    ensures AllDigits(s)
    ensures n < Pow10(|s|)
    ensures |s| > 1 ==> s[0] != '0'
  {
    if n < 10 then [DigitChar(n)] else NatText(n / 10) + [DigitChar(n % 10)]
  }

  /** An integer as `Integer.toString`, `Long.toString` and
      `BigInteger.toString` write it: a minus sign for negatives, then digits. */
  function DecimalText(x: int): (s: string)
    ensures 0 < |s|
    ensures x >= 0 <==> IsDigit(s[0])
    ensures x < 0 <==> s[0] == '-'
  {
    if x < 0 then "-" + NatText(-x) else NatText(x)
  }

  /** Reads what `DecimalText` writes: an optional minus sign and at least
      one digit. */
  function ParseDecimal(s: string): (r: Option<int>)
  {
    if 0 < |s| && s[0] == '-' then
      if 1 < |s| && AllDigits(s[1..]) then Some(-(DigitsValue(s[1..]) as int)) else None
    else if 0 < |s| && AllDigits(s) then Some(DigitsValue(s) as int)
    else None
  }

  lemma {:induction false} PadDigitsRoundTrip(n: nat, width: nat)
    requires n < Pow10(width)
    ensures DigitsValue(PadDigits(n, width)) == n
  {
    if width > 0 {
      var s := PadDigits(n, width);
      PadDigitsRoundTrip(n / 10, width - 1);
      assert s[..|s| - 1] == PadDigits(n / 10, width - 1);
    }
  }

  lemma {:induction false} DigitsPadRoundTrip(s: string)
    requires AllDigits(s)
    ensures PadDigits(DigitsValue(s), |s|) == s
  {
    if |s| > 0 {
      var init := s[..|s| - 1];
      DigitsPadRoundTrip(init);
      var n := DigitsValue(s);
      assert n / 10 == DigitsValue(init);
      assert n % 10 == s[|s| - 1] as int - '0' as int;
      assert s == init + [s[|s| - 1]];
    }
  }

  lemma {:induction false} NatTextRoundTrip(n: nat)
    ensures DigitsValue(NatText(n)) == n
  {
    if n >= 10 {
      var s := NatText(n);
      NatTextRoundTrip(n / 10);
      assert s[..|s| - 1] == NatText(n / 10);
    }
  }

  /** Reading back what `DecimalText` wrote gives the integer again. */
  lemma DecimalTextRoundTrip(x: int)
    ensures ParseDecimal(DecimalText(x)) == Some(x)
  {
    if x < 0 {
      NatTextRoundTrip(-x);
      assert DecimalText(x)[1..] == NatText(-x);
    } else {
      NatTextRoundTrip(x);
    }
  }
}

=== FILE: field_spec_factory.dfy ===
/** `FieldSpecFactory`: the starting field specifications — a whitelist, a
    given restriction, the default restriction of a field type, the shared
    null-only spec, and a generator-backed spec. Every one except the
    null-only spec lets the field be null. */
module FieldSpecFactory {

  import opened Wrappers
  import opened JavaLang
  import opened Profile

  /** `FieldType`. Any constant the factory's `switch` does not list is
      `OtherType`, carrying its `name()`. */
  datatype FieldType = Numeric | DateTime | String | Boolean | OtherType(typeName: string)

  /** `FieldType.name()`. */
  function TypeName(t: FieldType): string {
    match t
    case Numeric => "NUMERIC"
    case DateTime => "DATETIME"
    case String => "STRING"
    case Boolean => "BOOLEAN"
    case OtherType(n) => n
  }

  /** `Defaults.MAX_STRING_LENGTH`. */
  const MaxStringLength: nat := 1000

  /** The typed restrictions a spec can carry. The default numeric and
      date-time restrictions and `BooleanRestrictions` are built by classes
      outside this model and are known here only by what they are;
      `OtherRestrictions` stands for any restriction built elsewhere. */
  datatype TypedRestrictions =
    | DefaultNumericRestrictions
    | DefaultDateTimeRestrictions
    | StringRestrictions(maxLength: nat)
    | BooleanRestrictions
    | OtherRestrictions(description: string)

  /** A `FieldValueSource` and an accept predicate, known only by identity. */
  datatype FieldValueSource = FieldValueSource(sourceId: nat)
  datatype AcceptPredicate = AcceptPredicate(predicateId: nat)

  datatype FieldSpec =
    | WhitelistFieldSpec(whitelist: seq<Value>, nullable: bool)
    | RestrictionsFieldSpec(restrictions: TypedRestrictions, nullable: bool, mustContain: set<FieldSpec>)
    | NullOnlyFieldSpec
    | GeneratorFieldSpec(source: FieldValueSource, acceptFunction: AcceptPredicate, nullable: bool)

  /** Whether a spec lets the field be null. */
  predicate PermitsNull(spec: FieldSpec) {
    spec.NullOnlyFieldSpec? || spec.nullable
  }

  /** Whether a spec lets the field take `v`. Only null is decided for the
      kinds whose values come from a restriction or a generator. */
  predicate Admits(spec: FieldSpec, v: Value)
    requires spec.WhitelistFieldSpec? || spec.NullOnlyFieldSpec? || v.Null?
  {
    if v.Null? then PermitsNull(spec)
    else spec.WhitelistFieldSpec? && v in spec.whitelist
  }

  /** The field type a restriction constrains. */
  function RestrictedType(r: TypedRestrictions): Option<FieldType> {
    match r
    case DefaultNumericRestrictions => Some(Numeric)
    case DefaultDateTimeRestrictions => Some(DateTime)
    case StringRestrictions(_) => Some(String)
    case BooleanRestrictions => Some(Boolean)
    case OtherRestrictions(_) => None
  }

  /** `NULL_ONLY_FIELD_SPEC`, created once. */
  const NullOnlySingleton: FieldSpec := NullOnlyFieldSpec

  /** `fromList`: the field takes exactly the listed values, or null. */
  function FromList(whitelist: seq<Value>): (r: FieldSpec)
    ensures r.WhitelistFieldSpec? && r.whitelist == whitelist
    ensures forall v :: Admits(r, v) <==> v.Null? || v in whitelist
  {
    WhitelistFieldSpec(whitelist, true)
  }

  /** `fromRestriction`: the restriction unchanged, null allowed, nothing
      that must be contained. */
  function FromRestriction(restrictions: TypedRestrictions): (r: FieldSpec)
    ensures r.RestrictionsFieldSpec? && r.restrictions == restrictions
    ensures PermitsNull(r) && r.mustContain == {}
  {
    RestrictionsFieldSpec(restrictions, true, {})
  }

  /** `fromType`: the default restriction of each of the four field types;
      any other type is refused with an `IllegalArgumentException` naming
      it. */
  function FromType(t: FieldType): (r: Result<FieldSpec, Exception>)
    ensures r.Ok? <==> !t.OtherType?
    ensures r.Ok? ==> r.value.RestrictionsFieldSpec? && RestrictedType(r.value.restrictions) == Some(t)
    ensures r.Ok? ==> PermitsNull(r.value) && r.value.mustContain == {}
    ensures t.String? ==> r.value.restrictions == StringRestrictions(MaxStringLength)
    ensures r.Err? ==> r.error == IllegalArgument("Unable to create FieldSpec from type " + TypeName(t))
  {
    match t
    case Numeric => Ok(RestrictionsFieldSpec(DefaultNumericRestrictions, true, {}))
    case DateTime => Ok(RestrictionsFieldSpec(DefaultDateTimeRestrictions, true, {}))
    case String => Ok(RestrictionsFieldSpec(StringRestrictions(MaxStringLength), true, {}))
    case Boolean => Ok(RestrictionsFieldSpec(BooleanRestrictions, true, {}))
    case OtherType(_) => Err(IllegalArgument("Unable to create FieldSpec from type " + TypeName(t)))
  }

  /** `nullOnly`: the shared spec whose only value is null. */
  function NullOnly(): (r: FieldSpec)
    ensures r == NullOnlySingleton
    ensures forall v :: Admits(r, v) <==> v.Null?
  {
    NullOnlySingleton
  }

  /** `fromGenerator`: the source and accept predicate unchanged, null
      allowed. */
  function FromGenerator(source: FieldValueSource, accept: AcceptPredicate): (r: FieldSpec)
    ensures r.GeneratorFieldSpec? && r.source == source && r.acceptFunction == accept
    ensures PermitsNull(r)
  {
    GeneratorFieldSpec(source, accept, true)
  }

  /** Different field types get different default specs, and the type can
      be read back from the spec's restriction. */
  lemma FromTypeDistinguishesTypes(s: FieldType, t: FieldType)
    requires FromType(s).Ok? && FromType(t).Ok?
    ensures FromType(s) == FromType(t) <==> s == t
  {
  }
}

=== FILE: field_spec_helper.dfy ===
/** `FieldSpecHelper`: the field spec that pins a field to one value, built
    on the slot-based `FieldSpec` API (`FieldSpec.Empty` plus `with...`
    updates). */
module FieldSpecHelper {

  import opened Wrappers
  import opened Profile
  import C = AtomicConstraints
  import F = FieldSpecFactory

  /** `NullRestrictions.Nullness`. */
  datatype Nullness = MustBeNull | MustNotBeNull

  /** `SetRestrictions`: an optional whitelist and an optional blacklist. */
  datatype SetRestrictions = SetRestrictions(whitelist: Option<set<Value>>, blacklist: Option<set<Value>>)

  /** A field spec with one optional slot per kind of restriction. */
  datatype FieldSpec = FieldSpec(
    setRestrictions: Option<SetRestrictions>,
    nullRestrictions: Option<Nullness>,
    typedRestrictions: Option<F.TypedRestrictions>)

  /** `FieldSpec.Empty`: no restriction of any kind. */
  const Empty: FieldSpec := FieldSpec(None, None, None)

  function WithSetRestrictions(spec: FieldSpec, restrictions: SetRestrictions): (r: FieldSpec)
    ensures r.setRestrictions == Some(restrictions)
    ensures r.nullRestrictions == spec.nullRestrictions && r.typedRestrictions == spec.typedRestrictions
  {
    spec.(setRestrictions := Some(restrictions))
  }

  function WithNullRestrictions(spec: FieldSpec, nullness: Nullness): (r: FieldSpec)
    ensures r.nullRestrictions == Some(nullness)
    ensures r.setRestrictions == spec.setRestrictions && r.typedRestrictions == spec.typedRestrictions
  {
    spec.(nullRestrictions := Some(nullness))
  }

  /** Whether a spec lets the field take `v`, judged by its null policy and
      its set restrictions (typed restrictions are not modelled). */
  predicate Admits(spec: FieldSpec, v: Value) {
    if v.Null? then spec.nullRestrictions != Some(MustNotBeNull)
    else
      && spec.nullRestrictions != Some(MustBeNull)
      && (spec.setRestrictions.Some? && spec.setRestrictions.value.whitelist.Some? ==>
            v in spec.setRestrictions.value.whitelist.value)
      && (spec.setRestrictions.Some? && spec.setRestrictions.value.blacklist.Some? ==>
            v !in spec.setRestrictions.value.blacklist.value)
  }

  /** `getNullRequiredFieldSpec`: only null, and nothing else set. */
  function NullRequiredFieldSpec(): (r: FieldSpec)
    ensures r.nullRestrictions == Some(MustBeNull)
    ensures r.setRestrictions.None? && r.typedRestrictions.None?
    ensures forall v :: Admits(r, v) <==> v.Null?
  {
    WithNullRestrictions(Empty, MustBeNull)
  }

  /** `getFieldSpecForValue`: a spec admitting exactly `value`. A null value
      requires null; any other value is the sole member of a whitelist and
      the field must not be null. */
  function GetFieldSpecForValue(value: Value): (r: FieldSpec)
    ensures forall v :: Admits(r, v) <==> v == value
    ensures r.typedRestrictions.None?
    ensures value.Null? ==> r.nullRestrictions == Some(MustBeNull) && r.setRestrictions.None?
    ensures !value.Null? ==> r.nullRestrictions == Some(MustNotBeNull)
    ensures !value.Null? ==> r.setRestrictions == Some(SetRestrictions(Some({value}), None))
  {
    if value.Null? then NullRequiredFieldSpec()
    else
      WithNullRestrictions(
        WithSetRestrictions(Empty, SetRestrictions(Some({value}), None)),
        MustNotBeNull)
  }

  /** The null policy a nullness constraint stands for: is-null requires
      null, and its negation requires a value. */
  function NullnessOf(c: C.Constraint): Option<Nullness> {
    match c
    case Atomic(_, IsNull, _) => Some(MustBeNull)
    case Not(Atomic(_, IsNull, _)) => Some(MustNotBeNull)
    case _ => None
  }

  /** Negation flips the null policy both ways: the negation of an is-null
      constraint requires a value, and negating that again requires null.
      On the shapes negation produces the converse holds too: a negation
      that requires a value came from an is-null constraint, and one that
      requires null came from a negated is-null constraint. */
  lemma NegationFlipsNullness(c: C.Constraint)
    ensures NullnessOf(c) == Some(MustBeNull) ==> NullnessOf(C.Negate(c)) == Some(MustNotBeNull)
    ensures NullnessOf(c) == Some(MustNotBeNull) ==> NullnessOf(C.Negate(c)) == Some(MustBeNull)
    ensures C.Canonical(c) && NullnessOf(C.Negate(c)) == Some(MustNotBeNull) ==>
              NullnessOf(c) == Some(MustBeNull)
    ensures C.Canonical(c) && NullnessOf(C.Negate(c)) == Some(MustBeNull) ==>
              NullnessOf(c) == Some(MustNotBeNull)
  {
  }

  /** The nullness convention: the negated is-null constraint maps to
      `MUST_NOT_BE_NULL`, the policy of every spec pinned to a non-null
      value, while the is-null constraint itself, and its double negation,
      map to the policy of the spec pinned to null. */
  lemma NegatedIsNullMeansNotNull(f: Field, rule: C.Rule, value: Value)
    requires !value.Null?
    ensures NullnessOf(C.Negate(C.Atomic(f, C.IsNull, rule))) == Some(MustNotBeNull)
    ensures NullnessOf(C.Negate(C.Atomic(f, C.IsNull, rule))) == GetFieldSpecForValue(value).nullRestrictions
    ensures NullnessOf(C.Atomic(f, C.IsNull, rule)) == GetFieldSpecForValue(Null).nullRestrictions
    ensures NullnessOf(C.Negate(C.Negate(C.Atomic(f, C.IsNull, rule)))) == GetFieldSpecForValue(Null).nullRestrictions
  {
    NegationFlipsNullness(C.Atomic(f, C.IsNull, rule));
    NegationFlipsNullness(C.Negate(C.Atomic(f, C.IsNull, rule)));
  }
}

=== FILE: iso_dates.dfy ===
/** The two java.time parsers that `parseDate` calls: `LocalDate.parse`
    (ISO 8601 extended calendar date, `yyyy-MM-dd`, section 4.1.2.2 of
    ISO 8601:2004) and `LocalDateTime.parse` (the same date, a `T`, and a
    local time `HH:mm[:ss[.fraction]]`, section 4.3.2), both with strict
    calendar resolution and no time-zone offset. Years are the unsigned
    four-digit years 0000-9999. */
module IsoDates {

  import opened Wrappers
  import opened Digits

  datatype LocalDate = LocalDate(year: int, month: int, day: int)
  datatype LocalTime = LocalTime(hour: int, minute: int, second: int, nano: int)
  datatype LocalDateTime = LocalDateTime(date: LocalDate, time: LocalTime)

  const Midnight: LocalTime := LocalTime(0, 0, 0, 0)

  /** Proleptic Gregorian leap years. */
  predicate IsLeapYear(year: int) {
    year % 4 == 0 && (year % 100 != 0 || year % 400 == 0)
  }

  function DaysInMonth(year: int, month: int): (n: int)
    requires 1 <= month <= 12
    ensures 28 <= n <= 31
    ensures month == 2 ==> (n == 29 <==> IsLeapYear(year))
  {
    if month == 2 then (if IsLeapYear(year) then 29 else 28)
    else if month == 4 || month == 6 || month == 9 || month == 11 then 30
    else 31
  }

  /** A date a four-digit ISO calendar-date string can denote. */
  predicate ValidDate(d: LocalDate) {
    && 0 <= d.year <= 9999
    && 1 <= d.month <= 12
    && 1 <= d.day <= DaysInMonth(d.year, d.month)
  }

  predicate ValidTime(t: LocalTime) {
    && 0 <= t.hour < 24
    && 0 <= t.minute < 60
    && 0 <= t.second < 60
    && 0 <= t.nano < 1_000_000_000
  }

  predicate ValidDateTime(dt: LocalDateTime) {
    ValidDate(dt.date) && ValidTime(dt.time)
  }

  /** `LocalDate.atStartOfDay()`. */
  function AtStartOfDay(d: LocalDate): (dt: LocalDateTime)
    ensures dt.date == d
    ensures dt.time.hour == 0 && dt.time.minute == 0 && dt.time.second == 0 && dt.time.nano == 0
  {
    LocalDateTime(d, Midnight)
  }

  /** The canonical text of a date, `yyyy-MM-dd`. */
  function FormatDate(d: LocalDate): (s: string)
    requires ValidDate(d)
    ensures |s| == 10
  {
    PadDigits(d.year, 4) + "-" + PadDigits(d.month, 2) + "-" + PadDigits(d.day, 2)
  }

  /** The full text of a time, `HH:mm:ss.nnnnnnnnn`. */
  function FormatTime(t: LocalTime): (s: string)
    requires ValidTime(t)
    ensures |s| == 18
  {
    PadDigits(t.hour, 2) + ":" + PadDigits(t.minute, 2) + SecondsText(t.second, t.nano)
  }

  /** `:ss.nnnnnnnnn`. */
  function SecondsText(second: nat, nano: nat): (s: string)
    requires second < 100 && nano < 1_000_000_000
    ensures |s| == 13
  {
    Pow10Nine();
    ":" + PadDigits(second, 2) + FractionText(nano)
  }

  /** `.nnnnnnnnn`. */
  function FractionText(nano: nat): (s: string)
    requires nano < 1_000_000_000
    ensures |s| == 10
  {
    Pow10Nine();
    "." + PadDigits(nano, 9)
  }

  function FormatDateTime(dt: LocalDateTime): (s: string)
    requires ValidDateTime(dt)
    ensures |s| == 29
  {
    FormatDate(dt.date) + "T" + FormatTime(dt.time)
  }

  /** `LocalDate.parse`: exactly ten characters `dddd-dd-dd` naming a day
      that exists in the proleptic Gregorian calendar. */
  function ParseLocalDate(s: string): (r: Option<LocalDate>)
    ensures r.Some? ==> ValidDate(r.value) && FormatDate(r.value) == s
  {
    if |s| == 10 && AllDigits(s[..4]) && s[4] == '-' && AllDigits(s[5..7]) && s[7] == '-'
       && AllDigits(s[8..])
    then
      var d := LocalDate(DigitsValue(s[..4]), DigitsValue(s[5..7]), DigitsValue(s[8..]));
      if ValidDate(d) then
        DigitsPadRoundTrip(s[..4]);
        DigitsPadRoundTrip(s[5..7]);
        DigitsPadRoundTrip(s[8..]);
        assert s == s[..4] + "-" + s[5..7] + "-" + s[8..];
        Some(d)
      else None
    else None
  }

  /** What `ParseLocalDate` does with ten characters of the right shape:
      it reads the three numbers and checks the calendar. */
  lemma ParseLocalDateOfFields(s: string, d: LocalDate)
    requires |s| == 10 && s[4] == '-' && s[7] == '-'
    requires AllDigits(s[..4]) && AllDigits(s[5..7]) && AllDigits(s[8..])
    requires d == LocalDate(DigitsValue(s[..4]), DigitsValue(s[5..7]), DigitsValue(s[8..]))
    ensures ParseLocalDate(s) == if ValidDate(d) then Some(d) else None
  {
  }

  /** The nanoseconds of an optional fraction: nothing, or `.` followed by
      up to nine digits, the missing low digits read as zeros. */
  function ParseFraction(fraction: string): (r: Option<int>)
    ensures r.Some? ==> 0 <= r.value < 1_000_000_000
  {
    if |fraction| == 0 then Some(0)
    else if fraction[0] == '.' && |fraction| <= 10 && AllDigits(fraction[1..]) then
      var nine := fraction[1..] + Zeros(10 - |fraction|);
      Pow10Nine();
      Some(DigitsValue(nine))
    else None
  }

  /** Second and nanosecond from what follows `HH:mm`: nothing, or `:ss`
      and an optional fraction. */
  function ParseSeconds(rest: string): (r: Option<(int, int)>)
    ensures r.Some? ==> 0 <= r.value.0 < 100 && 0 <= r.value.1 < 1_000_000_000
  {
    if |rest| == 0 then Some((0, 0))
    else if |rest| >= 3 && rest[0] == ':' && AllDigits(rest[1..3]) then
      var nano := ParseFraction(rest[3..]);
      if nano.Some? then Some((DigitsValue(rest[1..3]), nano.value)) else None
    else None
  }

  /** `LocalTime` fields from `HH:mm`, `HH:mm:ss` or `HH:mm:ss.` followed by
      up to nine fraction digits. */
  function ParseLocalTime(s: string): (r: Option<LocalTime>)
    ensures r.Some? ==> ValidTime(r.value)
  {
    if |s| >= 5 && AllDigits(s[..2]) && s[2] == ':' && AllDigits(s[3..5]) then
      var fields := ParseSeconds(s[5..]);
      if fields.Some? then
        var t := LocalTime(DigitsValue(s[..2]), DigitsValue(s[3..5]), fields.value.0, fields.value.1);
        if ValidTime(t) then Some(t) else None
      else None
    else None
  }

  /** `LocalDateTime.parse`: a date, the separator `T` (matched without
      regard to case), and a time; nothing may follow, so an offset such as
      `Z` makes the parse fail. */
  function ParseLocalDateTime(s: string): (r: Option<LocalDateTime>)
    ensures r.Some? ==> ValidDateTime(r.value)
    ensures r.Some? ==> |s| >= 16 && FormatDate(r.value.date) == s[..10]
  {
    if |s| >= 11 && (s[10] == 'T' || s[10] == 't') then
      var date := ParseLocalDate(s[..10]);
      var time := ParseLocalTime(s[11..]);
      if date.Some? && time.Some? then Some(LocalDateTime(date.value, time.value)) else None
    else None
  }

  /** A valid date written canonically parses back to itself. */
  lemma ParseFormatDate(d: LocalDate)
    requires ValidDate(d)
    ensures ParseLocalDate(FormatDate(d)) == Some(d)
  {
    var s := FormatDate(d);
    PadDigitsRoundTrip(d.year, 4);
    PadDigitsRoundTrip(d.month, 2);
    PadDigitsRoundTrip(d.day, 2);
    assert s[..4] == PadDigits(d.year, 4);
    assert s[5..7] == PadDigits(d.month, 2);
    assert s[8..] == PadDigits(d.day, 2);
  }

  /** `ParseLocalDate` accepts exactly the canonical texts of valid dates. */
  lemma ParseLocalDateExactly(s: string, d: LocalDate)
    ensures ParseLocalDate(s) == Some(d) <==> ValidDate(d) && s == FormatDate(d)
  {
    if ValidDate(d) && s == FormatDate(d) {
      ParseFormatDate(d);
    }
  }

  /** A nine-digit fraction reads back as the nanoseconds it was written
      from. */
  lemma ParseFormatFraction(nano: nat)
    requires nano < 1_000_000_000
    ensures ParseFraction(FractionText(nano)) == Some(nano)
  {
    Pow10Nine();
    var digits := PadDigits(nano, 9);
    assert FractionText(nano)[1..] == digits;
    assert digits + Zeros(0) == digits;
    PadDigitsRoundTrip(nano, 9);
  }

  lemma ParseFormatSeconds(second: nat, nano: nat)
    requires second < 60 && nano < 1_000_000_000
    ensures ParseSeconds(SecondsText(second, nano)) == Some((second, nano))
  {
    var ss := PadDigits(second, 2);
    var rest := SecondsText(second, nano);
    assert rest == ":" + ss + FractionText(nano);
    assert rest[1..3] == ss;
    assert rest[3..] == FractionText(nano);
    PadDigitsRoundTrip(second, 2);
    ParseFormatFraction(nano);
  }

  lemma ParseFormatTime(t: LocalTime)
    requires ValidTime(t)
    ensures ParseLocalTime(FormatTime(t)) == Some(t)
  {
    var hh, mm := PadDigits(t.hour, 2), PadDigits(t.minute, 2);
    var head := hh + ":" + mm;
    var rest := SecondsText(t.second, t.nano);
    var s := FormatTime(t);
    assert s == head + rest;
    assert s[..5] == head && s[5..] == rest;
    assert head[..2] == hh && head[3..] == mm;
    assert s[..2] == hh && s[2] == ':' && s[3..5] == mm;
    PadDigitsRoundTrip(t.hour, 2);
    PadDigitsRoundTrip(t.minute, 2);
    ParseFormatSeconds(t.second, t.nano);
  }

  lemma ParseFormatDateTime(dt: LocalDateTime)
    requires ValidDateTime(dt)
    ensures ParseLocalDateTime(FormatDateTime(dt)) == Some(dt)
  {
    var s := FormatDateTime(dt);
    assert s[..10] == FormatDate(dt.date);
    assert s[11..] == FormatTime(dt.time);
    ParseFormatDate(dt.date);
    ParseFormatTime(dt.time);
  }
}

=== FILE: java_lang.dfy ===
/** The pieces of `java.lang` and `java.util.Objects` that the constraint
    classes lean on: 32-bit `int` arithmetic, the boxed `Number` kinds a
    profile operand can arrive as, `Number.intValue()`, and the
    `hashCode` recipes of `String` and `Objects.hash`. */
module JavaLang {

  import opened Wrappers
  import opened Digits

  /** The exceptions the modelled code can raise. */
  datatype Exception =
    | NullPointer
    | ClassCast(targetType: string)
    | IllegalArgument(message: string)
    | InvalidProfile(message: string)
    | DateTimeParse(parsedText: string)

  const IntMin: int := -0x8000_0000
  const IntMax: int := 0x7FFF_FFFF
  const TwoTo32: int := 0x1_0000_0000
  const TwoTo64: int := 0x1_0000_0000_0000_0000

  type Int32 = x: int | -0x8000_0000 <= x < 0x8000_0000
  type Int64 = x: int | -0x8000_0000_0000_0000 <= x < 0x8000_0000_0000_0000

  /** The low 32 bits of `x` read as a two's-complement `int`: what a
      narrowing cast `(int)` does to a `long`, and what `BigInteger.intValue`
      does. */
  function Wrap32(x: int): (r: Int32)
    ensures (r - x) % TwoTo32 == 0
    ensures IntMin <= x <= IntMax ==> r == x
  {
    (x - IntMin) % TwoTo32 + IntMin
  }

  /** Rounding toward zero, as every Java narrowing conversion from a
      floating-point value does. */
  function TruncateTowardZero(d: real): (t: int)
    ensures d >= 0.0 ==> 0 <= t && t as real <= d < t as real + 1.0
    ensures d < 0.0 ==> t <= 0 && t as real - 1.0 < d <= t as real
  {
    if d >= 0.0 then d.Floor else -((-d).Floor)
  }

  /** The boxed numbers a JSON number becomes. A `Double` is kept as its exact
      real value; every finite double is one. */
  datatype Number =
    | Integer(intBits: Int32)
    | Long(longBits: Int64)
    | BigInteger(magnitude: int)
    | Double(real_: real)

  /** The mathematical value of a number. */
  function Exact(n: Number): real {
    match n
    case Integer(i) => i as real
    case Long(l) => l as real
    case BigInteger(b) => b as real
    case Double(d) => d
  }

  predicate IsIntegral(n: Number) {
    Exact(n) == Exact(n).Floor as real
  }

  /** `Number.intValue()` for each boxed kind: the identity on `Integer`,
      the low 32 bits of a `Long` or `BigInteger`, and the saturating
      truncation `(int) d` of a `Double`. */
  function IntValue(n: Number): (r: Int32)
    ensures n.Integer? ==> r == n.intBits
    ensures n.Long? ==> (r - n.longBits) % TwoTo32 == 0
    ensures n.BigInteger? ==> (r - n.magnitude) % TwoTo32 == 0
    ensures n.Double? && IntMin as real <= Exact(n) < IntMax as real + 1.0 ==>
              r == TruncateTowardZero(Exact(n))
    ensures n.Double? && Exact(n) >= IntMax as real + 1.0 ==> r == IntMax
    ensures n.Double? && Exact(n) < IntMin as real ==> r == IntMin
  {
    match n
    case Integer(i) => i
    case Long(l) => Wrap32(l)
    case BigInteger(b) => Wrap32(b)
    case Double(d) =>
      var t := TruncateTowardZero(d);
      if t > IntMax then IntMax else if t < IntMin then IntMin else t
  }

  /** `toString()` of a boxed number. Integral kinds are written exactly; a
      `Double` is written exactly when it is a whole number below 10^7 in
      magnitude ("12.0"), and otherwise by its integer part followed by
      ".?" (the shortest-representation algorithm of `Double.toString` is
      not modelled). */
  function NumberText(n: Number): (s: string)
    ensures 0 < |s|
    ensures !n.Double? ==> ParseDecimal(s) == Some(Exact(n).Floor)
    ensures n.Double? ==> '.' in s
  {
    match n
    case Integer(i) => DecimalTextRoundTrip(i); DecimalText(i)
    case Long(l) => DecimalTextRoundTrip(l); DecimalText(l)
    case BigInteger(b) => DecimalTextRoundTrip(b); DecimalText(b)
    case Double(d) =>
      var t := TruncateTowardZero(d);
      var whole := DecimalText(t);
      var fraction := if t as real == d && -10_000_000 < t < 10_000_000 then ".0" else ".?";
      assert (whole + fraction)[|whole|] == '.';
      whole + fraction
  }

  /** Two integers congruent modulo 2^32 have the same low 32 bits. */
  lemma WrapCongruent(x: int, y: int)
    requires (x - y) % TwoTo32 == 0
    ensures Wrap32(x) == Wrap32(y)
  {
    var k := (x - y) / TwoTo32;
    assert x - IntMin == (y - IntMin) + k * TwoTo32;
  }

  /** One step of the polynomial keeps congruence modulo 2^32. */
  lemma PolyStep(h: Int32, v: int, x: int)
    requires h == Wrap32(v)
    ensures Wrap32(31 * h + x) == Wrap32(31 * v + x)
  {
    var k := (h - v) / TwoTo32;
    assert h - v == k * TwoTo32;
    calc {
      (31 * h + x) - (31 * v + x);
      31 * (h - v);
      31 * (k * TwoTo32);
      { MulAssoc(31, k, TwoTo32); }
      (31 * k) * TwoTo32;
    }
    MultipleMod(31 * k);
    WrapCongruent(31 * h + x, 31 * v + x);
  }

  lemma MulAssoc(a: int, b: int, c: int)
    ensures a * (b * c) == (a * b) * c
  {
  }

  lemma MultipleMod(m: int)
    ensures (m * TwoTo32) % TwoTo32 == 0
  {
  }

  /** The polynomial `31 * h + x` folded over `xs` from `seed` in unbounded
      integers, with no overflow anywhere. */
  function PolyValue(seed: int, xs: seq<int>): int {
    if |xs| == 0 then seed
    else 31 * PolyValue(seed, xs[..|xs| - 1]) + xs[|xs| - 1]
  }

  /** Java's polynomial hash: starting from `seed`, each element `x` turns the
      running value `h` into `31 * h + x`, in 32-bit arithmetic. Overflow
      along the way does not matter: the result is the low 32 bits of the
      unbounded polynomial. */
  function PolyHash(seed: Int32, xs: seq<int>): (h: Int32)
    ensures h == Wrap32(PolyValue(seed, xs))
  {
    if |xs| == 0 then seed
    else
      var init, last := xs[..|xs| - 1], xs[|xs| - 1];
      var h := PolyHash(seed, init);
      PolyStep(h, PolyValue(seed, init), last);
      Wrap32(31 * h + last)
  }

  /** The UTF-16 code units of a string, as Java stores it: characters
      beyond the basic plane take a surrogate pair. */
  function Utf16(s: string): (units: seq<int>)
    ensures |units| >= |s|
    ensures forall i :: 0 <= i < |units| ==> 0 <= units[i] < 0x1_0000
  {
    if |s| == 0 then []
    else
      var c := s[|s| - 1] as int;
      var last := if c < 0x1_0000 then [c]
                  else [0xD800 + (c - 0x1_0000) / 0x400, 0xDC00 + (c - 0x1_0000) % 0x400];
      Utf16(s[..|s| - 1]) + last
  }

  /** `String.hashCode()`: the sum of `u[i] * 31^(n-1-i)` over the UTF-16
      code units `u`, reduced to 32 bits; the empty string hashes to 0. */
  function StringHash(s: string): (h: Int32)
    ensures h == Wrap32(PolyValue(0, Utf16(s)))
    ensures |s| == 0 ==> h == 0
  {
    PolyHash(0, Utf16(s))
  }

  /** Appending a character of the basic plane multiplies the hash by 31
      and adds the character: the recurrence `String.hashCode()` documents. */
  lemma StringHashAppend(s: string, c: char)
    requires c as int < 0x1_0000
    ensures StringHash(s + [c]) == Wrap32(31 * StringHash(s) + c as int)
  {
    var t := s + [c];
    assert t[..|t| - 1] == s;
    var units := Utf16(s) + [c as int];
    assert Utf16(t) == units;
    assert units[..|units| - 1] == Utf16(s);
  }

  /** `Objects.hash(...)` over the hash codes of its arguments: the
      polynomial seeded with 1, reduced to 32 bits. For the two arguments
      the constraint classes pass, that is `31 * (31 + a) + b`. */
  function ObjectsHash(hashes: seq<Int32>): (h: Int32)
    ensures h == Wrap32(PolyValue(1, hashes))
    ensures |hashes| == 2 ==> h == Wrap32(31 * (31 + hashes[0] as int) + hashes[1] as int)
  {
    PairValue(hashes);
    PolyHash(1, hashes)
  }

  /** The unbounded polynomial over two elements, written out. */
  lemma PairValue(xs: seq<int>)
    ensures |xs| == 2 ==> PolyValue(1, xs) == 31 * (31 + xs[0]) + xs[1]
  {
    if |xs| == 2 {
      var first := [xs[0]];
      assert xs[..|xs| - 1] == first;
      assert first[..|first| - 1] == [];
      assert PolyValue(1, first) == 31 + xs[0];
    }
  }

  /** `hashCode()` of a boxed number. `Integer` and `Long` follow the JDK
      (`Long` folds its high word into its low word); for `BigInteger` and
      `Double` the model uses the number's `intValue` as a stand-in, which
      keeps hashes a function of the value but not the JDK's figures. */
  function NumberHash(n: Number): (h: Int32)
    ensures n.Integer? ==> h == n.intBits
    ensures n.Long? && 0 <= n.longBits <= IntMax ==> h == n.longBits
    ensures n.Long? && IntMin <= n.longBits < 0 ==> h == -1 - n.longBits
  {
    match n
    case Integer(i) => i
    case Long(l) =>
      // the long's 64 bits read unsigned, split into its two words
      var u := (l + TwoTo64) % TwoTo64;
      var high, low := u / TwoTo32, u % TwoTo32;
      LongWords(l, high, low);
      Wrap32(Xor(high, low, 32))
    case _ => IntValue(n)
  }

  function Pow2(w: nat): (p: nat)
    ensures p > 0
  {
    if w == 0 then 1 else 2 * Pow2(w - 1)
  }

  lemma Pow2Of32()
    ensures Pow2(32) == TwoTo32
  {
    assert Pow2(8) == 0x100;
    assert Pow2(16) == 0x1_0000;
    assert Pow2(24) == 0x100_0000;
  }

  /** Java's `^` on the low `width` bits of two non-negative numbers, bit by
      bit from the least significant. */
  function Xor(a: nat, b: nat, width: nat): nat {
    if width == 0 then 0
    else (if a % 2 == b % 2 then 0 else 1) + 2 * Xor(a / 2, b / 2, width - 1)
  }

  /** `0 ^ b == b`. */
  lemma {:induction false} XorZero(b: nat, width: nat)
    requires b < Pow2(width)
    ensures Xor(0, b, width) == b
  {
    if width > 0 {
      XorZero(b / 2, width - 1);
    }
  }

  /** `~0 ^ b == ~b`: against all ones, `xor` complements. */
  lemma {:induction false} XorOnes(b: nat, width: nat)
    requires b < Pow2(width)
    ensures Xor(Pow2(width) - 1, b, width) == Pow2(width) - 1 - b
  {
    if width > 0 {
      var ones := Pow2(width) - 1;
      assert ones % 2 == 1 && ones / 2 == Pow2(width - 1) - 1;
      XorOnes(b / 2, width - 1);
    }
  }

  /** The words of a long: both below 2^32. Above a non-negative `int` value
      the high word is zero; above a negative one it is all ones and the low
      word is `2^32 + l`. Their `xor` is the value itself, or `-1 - l`. */
  lemma LongWords(l: Int64, high: int, low: int)
    requires high == ((l + TwoTo64) % TwoTo64) / TwoTo32
    requires low == ((l + TwoTo64) % TwoTo64) % TwoTo32
    ensures 0 <= high < TwoTo32 && 0 <= low < TwoTo32
    ensures 0 <= l <= IntMax ==> Xor(high, low, 32) == l
    ensures IntMin <= l < 0 ==> Xor(high, low, 32) == -1 - l
  {
    Pow2Of32();
    if 0 <= l <= IntMax {
      assert high == 0 && low == l;
      XorZero(low, 32);
    } else if IntMin <= l < 0 {
      assert high == TwoTo32 - 1 && low == TwoTo32 + l;
      XorOnes(low, 32);
    }
  }

  /** An integral number whose value fits in an `int` passes through
      `intValue()` unchanged, whatever its boxed kind. */
  lemma IntValueKeepsIntRange(n: Number)
    requires IsIntegral(n)
    requires IntMin as real <= Exact(n) <= IntMax as real
    ensures IntValue(n) as real == Exact(n)
  {
    match n
    case Integer(i) =>
    case Long(l) => assert IntMin <= l <= IntMax;
    case BigInteger(b) => assert IntMin <= b <= IntMax;
    case Double(d) =>
      assert d == d.Floor as real;
      assert TruncateTowardZero(d) == d.Floor;
  }

  /** Outside the `int` range an integral `Long` wraps modulo 2^32 rather than
      failing: 2^31 becomes -2^31, so a "length" of `Integer.MAX_VALUE + 1`
      turns negative. */
  lemma LongIntValueWraps()
    ensures IntValue(Long(0x8000_0000)) == IntMin
    ensures IntValue(Long(0x1_0000_0005)) == 5
  {
  }

  /** A fractional `Double` is cut toward zero, never rejected. */
  lemma DoubleIntValueTruncates()
    ensures IntValue(Double(2.5)) == 2
    ensures IntValue(Double(-2.5)) == -2
    ensures IntValue(Double(1.0e10)) == IntMax
  {
  }

  /** The digits of a number's text read back as the number for every
      integral boxed kind. */
  lemma IntegralTextRoundTrip(n: Number)
    requires !n.Double?
    ensures ParseDecimal(NumberText(n)) == Some(Exact(n).Floor)
  {
    DecimalTextRoundTrip(Exact(n).Floor);
  }

}

=== FILE: profile.dfy ===
/** What a profile hands to the constraint readers: the raw JSON operand of a
    constraint record (as the loosely typed `Object` the JSON reader
    produces), the record itself, and the field it names. */
module Profile {

  import opened Wrappers
  import opened Digits
  import JavaLang

  /** A profile field, identified by name. */
  datatype Field = Field(name: string)

  /** A decoded JSON value: `null`, a string, a boxed number, a boolean, a
      list, or an object (kept as its ordered entries). */
  datatype Value =
    | Null
    | Str(s: string)
    | Num(n: JavaLang.Number)
    | Bool(b: bool)
    | List(items: seq<Value>)
    | Object(entries: seq<Entry>)

  datatype Entry = Entry(key: string, val: Value)

  /** One constraint record of the profile: the field name, the single
      operand `value` and the list operand `values` (`None` when absent). */
  datatype ConstraintDto = ConstraintDto(field: string, value: Value, values: Option<seq<Value>>)

  /** `String.valueOf(v)`: `toString()` of the value, with `"null"` for a
      null reference, lists as `[a, b]` and objects as `{k=v, ...}`. */
  function Text(v: Value): (s: string)
    ensures v.Str? ==> s == v.s
    ensures v.List? ==> 2 <= |s| && s[0] == '[' && s[|s| - 1] == ']'
    ensures v.Object? ==> 2 <= |s| && s[0] == '{' && s[|s| - 1] == '}'
    ensures v.Num? && !v.n.Double? ==> ParseDecimal(s) == Some(JavaLang.Exact(v.n).Floor)
    ensures v.Num? && v.n.Double? ==> '.' in s
    decreases v, 1
  {
    match v
    case Null => "null"
    case Str(s) => s
    case Num(n) => JavaLang.NumberText(n)
    case Bool(b) => if b then "true" else "false"
    case List(items) => "[" + ItemsText(v, items) + "]"
    case Object(entries) => "{" + EntriesText(v, entries) + "}"
  }

  function ItemsText(parent: Value, items: seq<Value>): string
    requires forall x :: x in items ==> x < parent
    decreases parent, 0, |items|
  {
    if |items| == 0 then ""
    else
      var last := items[|items| - 1];
      assert last in items;
      if |items| == 1 then Text(last)
      else
        var init := items[..|items| - 1];
        assert forall x :: x in init ==> x in items;
        ItemsText(parent, init) + ", " + Text(last)
  }

  function EntriesText(parent: Value, entries: seq<Entry>): string
    requires forall e :: e in entries ==> e.val < parent
    decreases parent, 0, |entries|
  {
    if |entries| == 0 then ""
    else
      var last := entries[|entries| - 1];
      assert last in entries;
      var lastText := last.key + "=" + Text(last.val);
      if |entries| == 1 then lastText
      else
        var init := entries[..|entries| - 1];
        assert forall e :: e in init ==> e in entries;
        EntriesText(parent, init) + ", " + lastText
  }
}

=== FILE: reader_properties.dfy ===
/** Properties of the constraint-reader table and of the readers' operand
    conversions. */
module ReaderProperties {

  import opened Wrappers
  import opened JavaLang
  import opened Profile
  import opened IsoDates
  import C = AtomicConstraints
  import opened ConstraintReaders

  /** Every constraint type has an `add` call in the static initializer. */
  lemma EveryTypeRegistered(t: ConstraintType)
    ensures t in Registrations
  {
    match t
    case FormattedAs => assert Registrations[0] == t;
    case IsEqualToConstant => assert Registrations[1] == t;
    case IsInSet => assert Registrations[2] == t;
    case MatchesRegex => assert Registrations[3] == t;
    case AValid => assert Registrations[4] == t;
    case IsGreaterThanConstant => assert Registrations[5] == t;
    case IsGreaterThanOrEqualToConstant => assert Registrations[6] == t;
    case IsLessThanConstant => assert Registrations[7] == t;
    case IsLessThanOrEqualToConstant => assert Registrations[8] == t;
    case IsBeforeConstantDateTime => assert Registrations[9] == t;
    case IsBeforeOrEqualToConstantDateTime => assert Registrations[10] == t;
    case IsAfterConstantDateTime => assert Registrations[11] == t;
    case IsAfterOrEqualToConstantDateTime => assert Registrations[12] == t;
    case IsGranularTo => assert Registrations[13] == t;
    case IsNull => assert Registrations[14] == t;
    case IsOfType => assert Registrations[15] == t;
    case IsStringLongerThan => assert Registrations[16] == t;
    case IsStringShorterThan => assert Registrations[17] == t;
    case HasLength => assert Registrations[18] == t;
  }

  /** Looking up a type's code finds that type's reader. */
  lemma LookupFindsRegisteredReader(t: ConstraintType)
    ensures GetByTypeCode(TypeCode(t)) == Some(t)
  {
    EveryTypeRegistered(t);
  }

  /** A code finds a reader exactly when it is the code of some constraint
      type; every other code finds `null`. */
  lemma LookupMissesUnregisteredCodes(code: string)
    ensures GetByTypeCode(code).None? <==> TypeOfCode(code).None?
  {
    var found := GetByTypeCode(code);
    if found.Some? {
      TypeCodeInjective(found.value);
    }
    var named := TypeOfCode(code);
    if named.Some? {
      LookupFindsRegisteredReader(named.value);
    }
  }

  /** A date written canonically is read as the start of that day. */
  lemma ParseDateOfCalendarDate(d: LocalDate)
    requires ValidDate(d)
    ensures ParseDate(FormatDate(d)) == Ok(AtStartOfDay(d))
  {
    ParseFormatDate(d);
  }

  /** A date-time written in full is read back unchanged. */
  lemma ParseDateOfDateTime(dt: LocalDateTime)
    requires ValidDateTime(dt)
    ensures ParseDate(FormatDateTime(dt)) == Ok(dt)
  {
    ParseFormatDateTime(dt);
  }

  /** The leap day exists in 2020. */
  lemma LeapDayParses()
    ensures ParseDate("2020-02-29") == Ok(AtStartOfDay(LocalDate(2020, 2, 29)))
  {
    LeapDayIn2020();
  }

  lemma LeapDayIn2020()
    ensures ParseLocalDate("2020-02-29") == Some(LocalDate(2020, 2, 29))
  {
    var s := "2020-02-29";
    assert s[..4] == ['2', '0', '2', '0'] && s[5..7] == ['0', '2'] && s[8..] == ['2', '9'];
    Digits.DigitsValueFour('2', '0', '2', '0');
    Digits.DigitsValueTwo('0', '2');
    Digits.DigitsValueTwo('2', '9');
    ParseLocalDateOfFields(s, LocalDate(2020, 2, 29));
  }

  /** Strict calendar resolution: 2019 has no leap day. */
  lemma NonLeapDayRejected()
    ensures ParseDate("2019-02-29") == Err(DateTimeParse("2019-02-29"))
  {
    NoLeapDayIn2019();
  }

  lemma NoLeapDayIn2019()
    ensures ParseLocalDate("2019-02-29").None?
  {
    var s := "2019-02-29";
    assert s[..4] == ['2', '0', '1', '9'] && s[5..7] == ['0', '2'] && s[8..] == ['2', '9'];
    Digits.DigitsValueFour('2', '0', '1', '9');
    Digits.DigitsValueTwo('0', '2');
    Digits.DigitsValueTwo('2', '9');
    assert !IsLeapYear(2019) && DaysInMonth(2019, 2) == 28;
    ParseLocalDateOfFields(s, LocalDate(2019, 2, 29));
  }

  /** Strict calendar resolution: the 30th of February never exists. */
  lemma ThirtiethOfFebruaryRejected()
    ensures ParseDate("2020-02-30") == Err(DateTimeParse("2020-02-30"))
  {
    NoThirtiethOfFebruary();
  }

  lemma NoThirtiethOfFebruary()
    ensures ParseLocalDate("2020-02-30").None?
  {
    var s := "2020-02-30";
    assert s[..4] == ['2', '0', '2', '0'] && s[5..7] == ['0', '2'] && s[8..] == ['3', '0'];
    Digits.DigitsValueFour('2', '0', '2', '0');
    Digits.DigitsValueTwo('0', '2');
    Digits.DigitsValueTwo('3', '0');
    assert IsLeapYear(2020) && DaysInMonth(2020, 2) == 29;
    ParseLocalDateOfFields(s, LocalDate(2020, 2, 30));
  }

  /** A local date-time is expected, so a trailing offset such as `Z` is
      refused. */
  lemma OffsetRejected()
    ensures ParseDate("2020-02-29T00:00:00.000Z").Err?
  {
    var s := "2020-02-29T00:00:00.000Z";
    var time := s[11..];
    assert time == "00:00:00.000Z";
    var fraction := time[5..][3..];
    assert fraction == ".000Z";
    assert fraction[1..][3] == 'Z';
    assert ParseFraction(fraction).None?;
    assert ParseLocalTime(time).None?;
  }

  /** `HH:mm` alone is a complete time. */
  lemma HourMinuteTimeParses()
    ensures ParseLocalTime("10:15") == Some(LocalTime(10, 15, 0, 0))
  {
    var time := "10:15";
    assert time[..2] == "10" && time[3..5] == "15" && time[5..] == [];
    Digits.DigitsValueTwo('1', '0');
    Digits.DigitsValueTwo('1', '5');
  }

  /** Seconds and fraction may be left out of a date-time. */
  lemma ShortDateTimeParses()
    ensures ParseDate("2020-02-29T10:15")
            == Ok(LocalDateTime(LocalDate(2020, 2, 29), LocalTime(10, 15, 0, 0)))
  {
    ShortLocalDateTimeParses();
  }

  lemma ShortLocalDateTimeParses()
    ensures ParseLocalDateTime("2020-02-29T10:15")
            == Some(LocalDateTime(LocalDate(2020, 2, 29), LocalTime(10, 15, 0, 0)))
  {
    var s := "2020-02-29T10:15";
    assert s[..10] == "2020-02-29" && s[11..] == "10:15";
    LeapDayIn2020();
    HourMinuteTimeParses();
  }

  /** The before/after readers run `parseDate` on the operand's `toString()`:
      a date given as a JSON object such as `{"date": "..."}`, or as a list,
      is never unwrapped and always fails to parse. */
  lemma DateObjectNotUnwrapped(op: C.TemporalOp, dto: ConstraintDto, field: Field, rule: C.Rule)
    requires dto.value.Object? || dto.value.List?
    ensures ReadDateTimeBound(op, dto, field, rule) == Err(DateTimeParse(Text(dto.value)))
  {
    var s := Text(dto.value);
    assert !Digits.IsDigit(s[0]);
    if |s| == 10 {
      assert !Digits.AllDigits(s[..4]);
    } else if |s| > 10 {
      assert !Digits.AllDigits(s[..10][..4]);
    }
  }

  /** The four before/after readers accept exactly the same operands and
      read the same instant from them. */
  lemma DateReadersAgree(op1: C.TemporalOp, op2: C.TemporalOp, dto: ConstraintDto, field: Field, rule: C.Rule)
    ensures ReadDateTimeBound(op1, dto, field, rule).Ok? == ReadDateTimeBound(op2, dto, field, rule).Ok?
    ensures ReadDateTimeBound(op1, dto, field, rule).Ok? ==>
              ReadDateTimeBound(op1, dto, field, rule).value.kind.referenceDateTime
              == ReadDateTimeBound(op2, dto, field, rule).value.kind.referenceDateTime
  {
  }

  /** Each type name the reader knows is read back to its type; `numeric` is
      among them. */
  lemma OfTypeRoundTrip(t: C.TypeName, field: Field, rule: C.Rule)
    ensures ReadOfType(ConstraintDto(field.name, Str(TypeWireName(t)), None), field, rule)
            == Ok(C.Atomic(field, C.IsOfType(t), rule))
  {
  }

  /** Length operands are truncated by `intValue()` and never validated: a
      fraction is cut, a negative number is kept, and 2^31 wraps to -2^31. */
  lemma LengthsNotValidated(field: Field, rule: C.Rule)
    ensures ReadHasLength(ConstraintDto(field.name, Num(Double(2.5)), None), field, rule)
            == Ok(C.Atomic(field, C.StringHasLength(Integer(2)), rule))
    ensures ReadHasLength(ConstraintDto(field.name, Num(Integer(-1)), None), field, rule)
            == Ok(C.Atomic(field, C.StringHasLength(Integer(-1)), rule))
    ensures ReadHasLength(ConstraintDto(field.name, Num(Long(0x8000_0000)), None), field, rule)
            == Ok(C.Atomic(field, C.StringHasLength(Integer(IntMin)), rule))
  {
    DoubleIntValueTruncates();
    LongIntValueWraps();
  }

  /** The distinct values of a list are never more than its entries. */
  lemma {:induction false} DistinctValuesBound(values: seq<Value>)
    ensures |DistinctValues(values)| <= |values|
  {
    if |values| > 0 {
      var init := values[..|values| - 1];
      DistinctValuesBound(init);
      assert DistinctValues(values) == DistinctValues(init) + {values[|values| - 1]};
    }
  }

  /** A list with a repeated entry yields a strictly smaller set: duplicates
      collapse. */
  lemma DuplicatesCollapse(values: seq<Value>, i: nat, j: nat)
    requires i < j < |values| && values[i] == values[j]
    ensures |DistinctValues(values)| < |values|
  {
    var rest := values[..j] + values[j + 1..];
    assert DistinctValues(values) == DistinctValues(rest) by {
      forall v | v in values ensures v in rest {
        var k :| 0 <= k < |values| && values[k] == v;
        if k == j {
          assert rest[i] == v;
        } else if k < j {
          assert rest[k] == v;
        } else {
          assert rest[k - 1] == v;
        }
      }
    }
    DistinctValuesBound(rest);
  }

  /** The in-set reader's operand collapses duplicate list entries. */
  lemma InSetCollapsesDuplicates(dto: ConstraintDto, field: Field, rule: C.Rule, i: nat, j: nat)
    requires dto.values.Some?
    requires i < j < |dto.values.value| && dto.values.value[i] == dto.values.value[j]
    ensures ReadInSet(dto, field, rule).Ok?
    ensures |ReadInSet(dto, field, rule).value.kind.legalValues| < |dto.values.value|
  {
    DuplicatesCollapse(dto.values.value, i, j);
  }
}

=== FILE: wrappers.dfy ===
/** Failure-compatible result types used by every module of the model.
    A Java method that returns normally is modelled as `Ok`; one that throws
    is modelled as `Err` carrying the exception. */
module Wrappers {

  /** `None` stands for a Java `null` reference where the source allows one. */
  datatype Option<+T> = None | Some(value: T)

  datatype Result<+T, +E> = Ok(value: T) | Err(error: E) {

    predicate IsFailure() {
      Err?
    }

    function PropagateFailure<U>(): Result<U, E>
      requires Err?
    {
      Err(error)
    }

    function Extract(): T
      requires Ok?
    {
      value
    }
  }
}
